=== FILE: README.md ===
# SuperPrompt in Dafny

SuperPrompt is a browser extension that sends selected text to a rewriting
API. This project models three parts of it and proves properties of each.

- **`POST /api/enhance`** (`server.dfy`, with `strings.dfy` and `words.dfy`).
  - The backend checks the request body.
  - It dispatches on `enhancementType` through a table of four rule-based
    rewriters: `improve`, `professional`, `creative` and `engaging`.
  - `professional` chains five case-insensitive whole-word regex replacements.
    `words.dfy` models each one as the left-to-right scan the regex engine
    does, using ASCII `\w`, `\b` and ASCII case folding.
  - That scan is proved equal to a word-by-word map. The five-step chain is
    then proved equal to one word-by-word rewording.
- **The extension's background worker** (`background.dfy`). It is a
  `BackgroundManager` class over a typed `chrome.storage.local` map and covers:
  - the 24-hour sign-in check and logout;
  - install;
  - the simulated Clerk completion on tab updates;
  - the per-day usage counters;
  - the authenticated call to the backend;
  - the message switch.

  Each method is proved equal to a pure function of the old store. The
  properties are proved about those functions.
- **The Supabase module's storage rules** (`auth.dfy`). It is an `AuthStorage`
  class over the same kind of map. It covers:
  - reading the session, which clears an expired one;
  - the current user and the logged-in test;
  - the projection `saveUserSession` writes;
  - the settings record and its defaults;
  - logout.

The clock, `Math.random`, the manifest version, and the answers of `fetch`,
Clerk and Supabase are all parameters.

Two behaviours of the code are worth stating plainly:

- `saveUserSettings` replaces the whole settings record; it does not merge
  with earlier settings.
- `handleInstall` always overwrites `installDate` and `version`, and it clears
  `user` and `authToken`, whether or not they were set before.

## Model

| member | source | states |
|---|---|---|
| Strings.Lower | backend/server.js:129 | `toLowerCase` on ASCII keeps the length and lower-cases each character on its own |
| Strings.LowerIdempotent | backend/server.js:129 | lower-casing twice is lower-casing once |
| Strings.ContainsIffOccurs | extention/background.js:82-90 | `includes` is true exactly when the substring occurs at some position |
| Strings.DecimalRoundTrip | extention/background.js:189 | the decimal text of a status number reads back as that number |
| Strings.DecimalInjective | extention/background.js:189 | different numbers have different decimal texts |
| Words.ReplaceWord | backend/server.js:107-111 | `s.replace(/\bw\b/gi, r)` as the regex engine's left-to-right scan; what it replaces is stated by `ReplaceWordIsMapWords` |
| Words.ReplaceWordIsMapWords | backend/server.js:107-111 | `s.replace(/\bw\b/gi, r)` replaces exactly the maximal word runs equal to `w` up to ASCII case, and keeps everything else |
| Words.MapWordsThen | backend/server.js:106-111 | two word-wise passes in a row equal one pass of the composed per-word rewording |
| Words.MapWordsCongruent | backend/server.js:106-111 | word-wise passes whose rewordings agree on every word give the same text |
| Server.ParseKind | backend/server.js:95-131 | a type selects a style only when it is that style's own key in the table |
| Server.ParseKindName | backend/server.js:95-131 | each of the four styles is selected by its own name |
| Server.ValidateText | backend/server.js:61-71 | `text` passes exactly when it is a non-empty string of at most 5,000 characters; a missing, empty or non-string text gets the "required" message, and a longer one gets the "too long" message |
| Server.HandleEnhance | backend/server.js:56-90 | 400 exactly when validation fails, carrying its message; otherwise 200 with the original text, the rewrite, the type (default `improve`) and the timestamp |
| Server.RuleBased | backend/server.js:163-170 | an `enhancementType` that is none of the four styles gets exactly the `improve` output; a style gets its own rewriter |
| Server.TypeOrDefault | backend/server.js:58 | a missing `enhancementType` means `improve`; a given one is used as it is |
| Server.ImproveText | backend/server.js:96-102 | `improve` always makes the text longer |
| Server.ImproveKeepsInput | backend/server.js:96-102 | a short text leads the output before the fixed sentence; a long one sits between the "Enhanced version" prefix and the suffix |
| Server.ImproveRoundTrip | backend/server.js:96-102 | the input can be recovered from every `improve` output, so no two inputs share one |
| Server.ProfessionalText | backend/server.js:104-113 | the `professional` output ends with the fixed professional closing line |
| Server.ProfessionalIsWordwise | backend/server.js:104-113 | the five replacements in a row rewrite each word run on its own (`i`→`I`, `wanna`→`want to`, `gonna`→`going to`, `cant`→`cannot`, `dont`→`do not`, any case), keep all other characters, and append the suffix |
| Server.ChainOnWord | backend/server.js:106-111 | on a single word, the five passes in a row give the formal rewording |
| Server.FormalIdempotent | backend/server.js:106-111 | rewording the rewritten text again changes nothing |
| Server.CreativeText | backend/server.js:115-125 | the output starts with the chosen opener and ends with the fixed closing line, with room for exactly the text in between |
| Server.CreativeRoundTrip | backend/server.js:115-125 | a `creative` output is one of the four prefixes, then the text, then the suffix; both the prefix and the text can be read back |
| Server.EngagingText | backend/server.js:127-130 | the output starts with "Did you know that " and ends with the fixed closing line, with room for exactly the text in between |
| Server.EngagingSameIffSameLowercase | backend/server.js:127-130 | two texts give the same `engaging` output exactly when they agree up to ASCII case |
| Server.EngagingLowercases | backend/server.js:127-130 | the output shows the lower-cased text right after "Did you know that ", with no upper-case ASCII letter in it |
| Server.RuleBasedAsWritten | backend/server.js:165 | the lookup as written agrees with `RuleBased` for every type that is not an inherited member name |
| Server.ToStringTypeSkipsFallback | backend/server.js:165 | the type `toString` is not a style, yet it yields "[object Object]" instead of the `improve` output |
| Server.HandleEnhanceAsWritten | backend/server.js:56-90 | the handler with the as-written lookup behaves like `HandleEnhance` on invalid input and on every non-inherited type |
| Server.ProtoTypeFailsRequest | backend/server.js:84-89 | a valid text with type `__proto__` gets a 500 as written, and a 200 with the own-key lookup |
| Background.SignedOut | extention/background.js:238-254 | logout removes exactly `user`, `authToken` and `authTimestamp`, and keeps every other entry |
| Background.CheckAuth | extention/background.js:130-156 | with no user or an empty token the check is unauthenticated and changes nothing |
| Background.CheckAuthMeaning | extention/background.js:134-150 | authenticated exactly when credentials are stored and the token age is at most 86,400,000 ms, with the stored user and the store unchanged; otherwise the store is unchanged or signed out, and stored credentials older than 24 h always end in a sign-out |
| Background.CheckAuthIdempotent | extention/background.js:130-156 | a second check at the same moment answers the same and changes nothing more |
| Background.ExpiryBoundary | extention/background.js:139-145 | a token exactly 24 h old is still valid; 1 ms later the check signs out |
| Background.MissingTimestampIsEpoch | extention/background.js:139 | a missing `authTimestamp` counts as 0 |
| Background.SignedOutKeepsTyping | extention/background.js:241 | logout keeps the store well typed, is idempotent, and leaves no credentials |
| Background.Installed | extention/background.js:37-43 | install sets `installDate` and `version`, removes only `user` and `authToken`, and keeps every other entry |
| Background.InstallSignsOut | extention/background.js:37-43 | after install nobody is authenticated, but a stored `authTimestamp` survives |
| Background.CompletedAuth | extention/background.js:99-113 | auth completion writes exactly the three sign-in keys — the simulated user `user_<now>`, the token `jwt_token_<now>` and the timestamp `now` — and keeps every other entry |
| Background.CompletedAuthLastsADay | extention/background.js:99-113 | after completion at `now`, the check authenticates the simulated user exactly up to `now` + 24 h |
| Background.IsClerkAuthUrl | extention/background.js:88-91 | a URL is a Clerk page when it contains `clerk.accounts.dev` or `your-clerk-domain` |
| Background.TabUpdated | extention/background.js:78-86 | a Clerk URL reporting `success` or `dashboard` completes the sign-in; any other update leaves the store as it was |
| Background.TabUpdateNeedsClerkSuccess | extention/background.js:78-91 | a tab update changes the store only for a Clerk URL that also contains `success` or `dashboard` |
| Background.Increment | extention/background.js:303-310 | the counter for (today, type) grows by exactly 1, a missing one counting as 0; every other counter is unchanged; the day and type keys are added |
| Background.LoggedUsage | extention/background.js:297-315 | logging usage writes only `usageStats`, and writes there the old counters with the (today, type) counter one higher and every other counter unchanged |
| Background.Enhance | extention/background.js:158-203 | a request sent carries the header `Bearer <stored token>` |
| Background.EnhanceRequiresAuth | extention/background.js:158-181 | no request is sent exactly when the check is unauthenticated, and the result is then "Authentication required"; otherwise the request carries the prompt, the type and the user id |
| Background.EnhanceFailureStatus | extention/background.js:183-190 | a 401 signs out and fails with "Session expired. Please sign in again."; any other non-OK status fails with `API error: <status> <statusText>` and changes nothing |
| Background.ApiErrorNamesStatus | extention/background.js:189 | different statuses give different API error messages |
| Background.EnhanceSuccessLogsUsage | extention/background.js:192-197 | an OK answer returns `enhancedPrompt`, counts one use of the type for today, and keeps every other entry |
| Background.ParseAction | extention/background.js:48-71 | an action selects a case only when it is that case's name |
| Background.ParseActionName | extention/background.js:48-71 | each of the four actions is selected by its own name |
| Background.Dispatch | extention/background.js:69-70 | an unknown action answers "Unknown action", sends nothing, and changes nothing |
| Background.DispatchRoutes | extention/background.js:48-67 | each known action does exactly what its handler does; only `enhancePrompt` sends a request; `verifyAuth` leaves the store alone and reports the verification's success |
| Background.DispatchReportsErrors | extention/background.js:72-75 | an enhancement that throws is answered with `success: false` and the thrown message; one that succeeds is answered with its prompt |
| Background.DispatchKeepsTyping | extention/background.js:46-76 | every message keeps the store well typed |
| Background.BackgroundManager.HandleInstall | extention/background.js:33-44 | the new store is `Installed` of the old one |
| Background.BackgroundManager.HandleLogout | extention/background.js:238-254 | the new store is `SignedOut` of the old one |
| Background.BackgroundManager.CheckAuthStatus | extention/background.js:130-156 | the answer and the new store are `CheckAuth` of the old store |
| Background.BackgroundManager.LogUsage | extention/background.js:297-315 | the new store is `LoggedUsage` of the old one, built step by step as the source builds it |
| Background.BackgroundManager.EnhancePrompt | extention/background.js:158-203 | result, request and new store are `Enhance` of the old store |
| Background.BackgroundManager.HandleAuthCompletion | extention/background.js:93-128 | the new store is `CompletedAuth` of the old one |
| Background.BackgroundManager.HandleTabUpdate | extention/background.js:78-86 | the new store is `TabUpdated` of the old one |
| Background.BackgroundManager.HandleMessage | extention/background.js:46-76 | reply, request and new store are `Dispatch` of the old store |
| Auth.StorageKeys | auth.js:14-18 | the three storage keys are distinct |
| Auth.SessionRead | auth.js:116-136 | a session read either leaves the store alone or removes the session key alone |
| Auth.SessionReadMeaning | auth.js:119-133 | the stored session is returned, with nothing changed, exactly when its `expires_at` is set and later than floor(now/1000); an expired session is removed; a session without expiry is neither returned nor removed |
| Auth.SessionReadIdempotent | auth.js:116-136 | a second read at the same moment returns the same and removes nothing more |
| Auth.LoggedIn | auth.js:154-158 | the logged-in test leaves the store as the session read left it |
| Auth.LoggedInMeaning | auth.js:154-158 | logged in exactly when a live session and a user record are both stored |
| Auth.ProjectSession | auth.js:191-196 | the stored session keeps the access and refresh tokens and the expiry, and its `user_id` is the session's own user id |
| Auth.ProjectUser | auth.js:198-203 | the stored user keeps the id, the email and `created_at`, and `last_sign_in` is `last_sign_in_at` |
| Auth.ProjectionIgnoresExtra | auth.js:190-203 | fields the module does not copy have no effect on what is stored |
| Auth.SavedSession | auth.js:205-208 | saving writes exactly the session and user keys, holding the projected session and user records whatever the session's expiry, keeps every other entry, and keeps the store well typed |
| Auth.SaveThenRead | auth.js:190-208 | after a save the user reads back as projected; the session reads back, and the user is logged in, exactly when its expiry is in the future |
| Auth.WriteSettings | auth.js:229-233 | saving settings writes only the settings key |
| Auth.DefaultSettings | auth.js:239-248 | the default settings record (its keys and values are stated by `DefaultSettingsValues`) |
| Auth.DefaultSettingsValues | auth.js:239-248 | the defaults are exactly `darkMode` off, `soundEffects` on, `autoCopy` off, `showIcon` on, `quality` "balanced" and `notifications` on |
| Auth.ReadSettings | auth.js:217-223 | with no settings record stored, the defaults; otherwise the stored record as it is |
| Auth.SettingsRoundTrip | auth.js:217-233 | saved settings read back exactly, with nothing merged from earlier settings; a second save replaces the first |
| Auth.LoggedOut | auth.js:91-110 | logout removes exactly the three keys unless sign-out threw, and keeps everything else |
| Auth.LogoutClearsState | auth.js:94-104 | after a logout whose sign-out only reported an error, or succeeded, nobody is logged in and settings read as defaults |
| Auth.AuthStorage.GetSession | auth.js:116-136 | result and new store are `SessionRead` of the old store |
| Auth.CurrentUser | auth.js:142-148 | a user is returned exactly when a user record is stored, and it is that record |
| Auth.AuthStorage.GetCurrentUser | auth.js:142-148 | the stored user record, or none when the key is absent |
| Auth.AuthStorage.IsLoggedIn | auth.js:154-158 | answer and new store are `LoggedIn` of the old store |
| Auth.AuthStorage.SaveUserSession | auth.js:190-211 | the new store is `SavedSession` of the old one |
| Auth.AuthStorage.GetUserSettings | auth.js:217-223 | the stored settings record, or the defaults when there is none |
| Auth.AuthStorage.SaveUserSettings | auth.js:229-233 | the new store is `WriteSettings` of the old one |
| Auth.AuthStorage.Logout | auth.js:91-110 | the new store is `LoggedOut` of the old one |

## Left out

- The OpenAI branch of `enhanceText` (backend/server.js:135-162) is foreign network code, so the model is the branch taken without an API key. The catch at line 169 recomputes the same rule-based result.
- Express plumbing is not modelled: CORS, the body-size limit, rate limiting, the health, 404 and error routes, and `listen`.
- An `enhancementType` that is not a string (a number, `null`, an object) is not modelled. The request's type is either missing or a string.
- Strings are sequences of characters, with ASCII `\w` and ASCII case folding:
  - `text.length` counts UTF-16 code units in the source but characters here;
  - `toLowerCase` on non-ASCII letters is not modelled.
- Server.RuleBasedAsWritten: inherited members are grouped by what they return. A call that yields a non-string is not followed further than "some other JSON value".
- `Math.random`, `Date.now()` and `new Date().toISOString()` are parameters, as are the manifest version, the backend's answer and Clerk's verification result.
- `verifyAuthWithClerk` and `refreshAuthToken` are Clerk network calls and are not modelled. The `verifyAuth` route is modelled with the verification as a parameter.
- `chrome.alarms`, `chrome.runtime` notifications, `console` logging and the keep-channel-open `return true` are not modelled.
- Storage errors caught by the handlers' `catch` blocks are not modelled; storage operations always succeed here. The same goes for a `response.json()` that fails to parse.
- Background.BackgroundManager.LogUsage: the source does not await `logUsage`. Here it runs as part of the same step. Like `Increment`, it treats every type name as an ordinary counter.
- Background.Increment: the source reads `stats[today][type] || 0` from a plain object, so a type named after an `Object.prototype` member (`toString`, `valueOf`, `constructor`, `__proto__` and the rest) finds the inherited member: `toString` stores a function's text followed by `1`, and `__proto__` stores no counter. The model counts such a name like any other. The only sender of `enhancePrompt`, extention/content.js:162-166, sends `improve`.
- Background.CompletedAuth: `handleAuthCompletion` reads `Date.now()` three times, for the user id, the token and `authTimestamp` (extention/background.js:100, 106, 112). The model takes all three reads as one instant `now`, so readings a millisecond apart are not modelled.
- Background.LoggedUsage: the same inherited-name case as `Increment` is not modelled.
- Background.EnhanceSuccessLogsUsage: the same inherited-name case as `Increment` is not modelled.
- The stores are typed: each key holds what the code writes there. A value of another type under those keys (for instance a non-numeric `authTimestamp` written by other code) is not modelled.
- The Supabase SDK calls (`signup`, `login`, `refreshSession`, `initializeAuth`, `resetPassword`, `updateProfile`) are not modelled. Only what they store, through `saveUserSession` and `logout`, is.
- The background worker and the Supabase module are modelled as separate stores, although both write to `chrome.storage.local`.
- `popup.js` and the content scripts are UI and DOM code and are not part of this model.

## Findings

| source | as written | input that shows it | evidently intended | confidence | as-written member | corrected member |
|---|---|---|---|---|---|---|
| backend/server.js:165 | `enhancements[enhancementType] ? … : enhancements.improve(text)` also finds the members every object inherits from `Object.prototype` | `enhancementType: "toString"` gives `enhancedText: "[object Object]"`; `"__proto__"` throws twice (lines 165 and 169) and the request fails with 500 | a type that is not one of the four styles falls back to `improve` | not executed | Server.RuleBasedAsWritten (shown by Server.ToStringTypeSkipsFallback and Server.ProtoTypeFailsRequest) | Server.RuleBased (used by Server.HandleEnhance) |

=== FILE: auth.dfy ===
/**
 * The storage side of the Supabase sign-in module: the session, the user and
 * the settings records it keeps in `chrome.storage.local`.
 *
 * The Supabase calls themselves are not modelled; what they hand over (a
 * provider session and user, the outcome of `signOut`) and the clock are
 * parameters.
 */
module Auth {
  import opened Wrappers

  const UserKey := "superpromptUser"
  const SessionKey := "superpromptSession"
  const SettingsKey := "superpromptSettings"

  /** The three keys of the storage-key table, all distinct. */
  function StorageKeys(): (keys: set<string>)
    ensures |keys| == 3
  {
    {UserKey, SessionKey, SettingsKey}
  }

  // What Supabase hands over.

  /** A Supabase user; `extra` holds the fields the module does not copy. */
  datatype ProviderUser = ProviderUser(id: string, email: string, createdAt: string,
                                       lastSignInAt: string, extra: map<string, string>)

  /** A Supabase session; `expiresAt` is in seconds and may be missing. */
  datatype ProviderSession = ProviderSession(accessToken: string, refreshToken: string, expiresAt: Option<int>,
                                             user: ProviderUser, extra: map<string, string>)

  // What the module stores.

  datatype StoredSession = StoredSession(accessToken: string, refreshToken: string,
                                         expiresAt: Option<int>, userId: string)

  datatype StoredUser = StoredUser(id: string, email: string, createdAt: string, lastSignIn: string)

  datatype Setting = Flag(on: bool) | Choice(name: string)

  type Settings = map<string, Setting>

  datatype Entry =
    | SessionEntry(session: StoredSession)
    | UserEntry(user: StoredUser)
    | SettingsEntry(settings: Settings)
    | Foreign(value: string)

  type Store = map<string, Entry>

  /** Each of the module's keys holds the record the module writes there. */
  predicate WellTyped(st: Store) {
    && (SessionKey in st ==> st[SessionKey].SessionEntry?)
    && (UserKey in st ==> st[UserKey].UserEntry?)
    && (SettingsKey in st ==> st[SettingsKey].SettingsEntry?)
  }

  // Reading the session.

  /** `session.expires_at` is truthy: present and not zero. */
  predicate HasExpiry(s: StoredSession) {
    s.expiresAt.Some? && s.expiresAt.value != 0
  }

  /** `Math.floor(now / 1000)`: the clock in whole seconds (Dafny's `/` floors for a positive divisor). */
  function Seconds(now: int): int {
    now / 1000
  }

  datatype SessionLookup = SessionLookup(session: Option<StoredSession>, store: Store)

  /** `getSession`: the live session, if any, and the store after it (an expired session is cleared). */
  function SessionRead(st: Store, now: int): (r: SessionLookup)
    ensures r.store == st || r.store == st - {SessionKey}
  {
    if SessionKey in st && st[SessionKey].SessionEntry? && HasExpiry(st[SessionKey].session) then
      var s := st[SessionKey].session;
      if s.expiresAt.value > Seconds(now) then SessionLookup(Some(s), st)
      else SessionLookup(None, st - {SessionKey})
    else SessionLookup(None, st)
  }

  /**
   * The stored session is returned exactly when it has an expiry later than
   * the current second; then nothing changes. An expired session is removed,
   * and only it; a session without expiry is neither returned nor removed.
   */
  lemma SessionReadMeaning(st: Store, now: int)
    requires WellTyped(st)
    ensures var r := SessionRead(st, now);
            && (r.session.Some? <==>
                  SessionKey in st && HasExpiry(st[SessionKey].session)
                  && st[SessionKey].session.expiresAt.value > Seconds(now))
            && (r.session.Some? ==> r.session.value == st[SessionKey].session && r.store == st)
            && (r.store != st <==>
                  SessionKey in st && HasExpiry(st[SessionKey].session)
                  && st[SessionKey].session.expiresAt.value <= Seconds(now))
            && (r.store != st ==> r.store == st - {SessionKey})
  {
    var r := SessionRead(st, now);
    if SessionKey in st && HasExpiry(st[SessionKey].session)
       && st[SessionKey].session.expiresAt.value <= Seconds(now) {
      assert SessionKey !in r.store;
    }
  }

  /** Reading the session twice at the same moment gives what the first read gave, and clears nothing more. */
  lemma SessionReadIdempotent(st: Store, now: int)
    ensures SessionRead(SessionRead(st, now).store, now) == SessionLookup(SessionRead(st, now).session, SessionRead(st, now).store)
  {
  }

  /** `getCurrentUser`. */
  function CurrentUser(st: Store): (r: Option<StoredUser>)
    ensures r.Some? <==> UserKey in st && st[UserKey].UserEntry?
    ensures r.Some? ==> r.value == st[UserKey].user
  {
    if UserKey in st && st[UserKey].UserEntry? then Some(st[UserKey].user) else None
  }

  datatype LoginCheck = LoginCheck(loggedIn: bool, store: Store)

  /** `isLoggedIn`: a live session and a user, after the session read has cleared an expired one. */
  function LoggedIn(st: Store, now: int): (r: LoginCheck)
    ensures r.store == SessionRead(st, now).store
  {
    var lookup := SessionRead(st, now);
    LoginCheck(lookup.session.Some? && CurrentUser(lookup.store).Some?, lookup.store)
  }

  /** Logged in exactly when a live session and a user record are both stored. */
  lemma LoggedInMeaning(st: Store, now: int)
    ensures LoggedIn(st, now).loggedIn <==> SessionRead(st, now).session.Some? && CurrentUser(st).Some?
  {
  }

  // Saving a session.

  /** The session record `saveUserSession` keeps: the owner id comes from the session's own user. */
  function ProjectSession(session: ProviderSession): (r: StoredSession)
    ensures r.userId == session.user.id && r.expiresAt == session.expiresAt
    ensures r.accessToken == session.accessToken && r.refreshToken == session.refreshToken
  {
    StoredSession(session.accessToken, session.refreshToken, session.expiresAt, session.user.id)
  }

  /** The user record `saveUserSession` keeps: the last sign-in comes from `last_sign_in_at`. */
  function ProjectUser(user: ProviderUser): (r: StoredUser)
    ensures r.id == user.id && r.lastSignIn == user.lastSignInAt
    ensures r.email == user.email && r.createdAt == user.createdAt
  {
    StoredUser(user.id, user.email, user.createdAt, user.lastSignInAt)
  }

  /** Only the copied fields matter: sessions and users that agree on them are stored alike. */
  lemma ProjectionIgnoresExtra(s1: ProviderSession, s2: ProviderSession, u1: ProviderUser, u2: ProviderUser)
    requires s1.accessToken == s2.accessToken && s1.refreshToken == s2.refreshToken
    requires s1.expiresAt == s2.expiresAt && s1.user.id == s2.user.id
    requires u1.(extra := map[]) == u2.(extra := map[])
    ensures ProjectSession(s1) == ProjectSession(s2)
    ensures ProjectUser(u1) == ProjectUser(u2)
  {
  }

  /** `saveUserSession`: the session and the user keys are written, and nothing else. */
  function SavedSession(st: Store, session: ProviderSession, user: ProviderUser): (r: Store)
    ensures r.Keys == st.Keys + {SessionKey, UserKey}
    ensures forall k :: k in r && k != SessionKey && k != UserKey ==> r[k] == st[k]
    ensures r[SessionKey] == SessionEntry(ProjectSession(session)) && r[UserKey] == UserEntry(ProjectUser(user))
    ensures WellTyped(st) ==> WellTyped(r)
  {
    st[SessionKey := SessionEntry(ProjectSession(session))][UserKey := UserEntry(ProjectUser(user))]
  }

  /**
   * After a save the user reads back as saved, and the session reads back
   * (so the user is logged in) exactly when it carries an expiry in the future.
   */
  lemma SaveThenRead(st: Store, session: ProviderSession, user: ProviderUser, now: int)
    ensures CurrentUser(SavedSession(st, session, user)) == Some(ProjectUser(user))
    ensures var live := HasExpiry(ProjectSession(session)) && session.expiresAt.value > Seconds(now);
            && (SessionRead(SavedSession(st, session, user), now).session.Some? <==> live)
            && (live ==> SessionRead(SavedSession(st, session, user), now).session == Some(ProjectSession(session)))
            && (LoggedIn(SavedSession(st, session, user), now).loggedIn <==> live)
  {
    var saved := SavedSession(st, session, user);
    assert saved[SessionKey] == SessionEntry(ProjectSession(session));
  }

  // Settings.

  function DefaultSettings(): Settings {
    map["darkMode" := Flag(false), "soundEffects" := Flag(true), "autoCopy" := Flag(false),
        "showIcon" := Flag(true), "quality" := Choice("balanced"), "notifications" := Flag(true)]
  }

  /** `getUserSettings`: the stored record, or the defaults when there is none. */
  function ReadSettings(st: Store): (r: Settings)
    ensures SettingsKey !in st ==> r == DefaultSettings()
    ensures SettingsKey in st && st[SettingsKey].SettingsEntry? ==> r == st[SettingsKey].settings
  {
    if SettingsKey in st && st[SettingsKey].SettingsEntry? then st[SettingsKey].settings else DefaultSettings()
  }

  /** `saveUserSettings`: the whole record is replaced. */
  function WriteSettings(st: Store, settings: Settings): (r: Store)
    ensures r.Keys == st.Keys + {SettingsKey}
    ensures forall k :: k in r && k != SettingsKey ==> r[k] == st[k]
  {
    st[SettingsKey := SettingsEntry(settings)]
  }

  /** The six settings `getDefaultSettings` returns. */
  lemma DefaultSettingsValues()
    ensures DefaultSettings().Keys == {"darkMode", "soundEffects", "autoCopy", "showIcon", "quality", "notifications"}
    ensures DefaultSettings()["quality"] == Choice("balanced")
    ensures DefaultSettings()["soundEffects"] == Flag(true) && DefaultSettings()["darkMode"] == Flag(false)
    ensures DefaultSettings()["autoCopy"] == Flag(false) && DefaultSettings()["showIcon"] == Flag(true)
    ensures DefaultSettings()["notifications"] == Flag(true)
  {
  }

  /** Saved settings read back as saved, with no key of earlier settings or of the defaults mixed in. */
  lemma SettingsRoundTrip(st: Store, earlier: Settings, settings: Settings)
    ensures ReadSettings(WriteSettings(st, settings)) == settings
    ensures ReadSettings(WriteSettings(WriteSettings(st, earlier), settings)) == settings
    ensures WriteSettings(WriteSettings(st, earlier), settings) == WriteSettings(st, settings)
  {
  }

  // Signing out.

  /** How `supabase.auth.signOut()` settled. */
  datatype SignOutOutcome = SignOutDone | SignOutReported(message: string) | SignOutThrew(message: string)

  /** `logout`: the three keys are cleared unless the sign-out call threw before clearing. */
  function LoggedOut(st: Store, outcome: SignOutOutcome): (r: Store)
    ensures r.Keys == if outcome.SignOutThrew? then st.Keys else st.Keys - StorageKeys()
    ensures forall k :: k in r ==> k in st && r[k] == st[k]
  {
    if outcome.SignOutThrew? then st else st - StorageKeys()
  }

  /** After a sign-out that did not throw, nobody is logged in and the settings are back to their defaults. */
  lemma LogoutClearsState(st: Store, outcome: SignOutOutcome, now: int)
    requires !outcome.SignOutThrew?
    ensures CurrentUser(LoggedOut(st, outcome)) == None
    ensures !LoggedIn(LoggedOut(st, outcome), now).loggedIn
    ensures ReadSettings(LoggedOut(st, outcome)) == DefaultSettings()
    ensures LoggedOut(st, outcome) == LoggedOut(st, SignOutDone)
  {
  }

  /** The module's storage, `chrome.storage.local` as this module uses it. */
  class AuthStorage {
    var store: Store

    predicate Valid()
      reads this
    {
      WellTyped(store)
    }

    constructor(initial: Store)
      requires WellTyped(initial)
      ensures Valid() && store == initial
    {
      store := initial;
    }

    method GetSession(now: int) returns (session: Option<StoredSession>)
      requires Valid()
      modifies this
      ensures Valid()
      ensures SessionLookup(session, store) == SessionRead(old(store), now)
    {
      if SessionKey in store && HasExpiry(store[SessionKey].session) {
        var s := store[SessionKey].session;
        if s.expiresAt.value > Seconds(now) {
          return Some(s);
        }
        store := store - {SessionKey};
        return None;
      }
      return None;
    }

    method GetCurrentUser() returns (user: Option<StoredUser>)
      requires Valid()
      ensures user.Some? <==> UserKey in store
      ensures user.Some? ==> store[UserKey] == UserEntry(user.value)
    {
      if UserKey in store {
        return Some(store[UserKey].user);
      }
      return None;
    }

    method IsLoggedIn(now: int) returns (loggedIn: bool)
      requires Valid()
      modifies this
      ensures Valid()
      ensures LoginCheck(loggedIn, store) == LoggedIn(old(store), now)
    {
      var session := GetSession(now);
      var user := GetCurrentUser();
      loggedIn := session.Some? && user.Some?;
    }

    method SaveUserSession(session: ProviderSession, user: ProviderUser)
      requires Valid()
      modifies this
      ensures Valid()
      ensures store == SavedSession(old(store), session, user)
    {
      var sessionData := ProjectSession(session);
      var userData := ProjectUser(user);
      store := store[SessionKey := SessionEntry(sessionData)][UserKey := UserEntry(userData)];
    }

    method GetUserSettings() returns (settings: Settings)
      requires Valid()
      ensures SettingsKey in store ==> store[SettingsKey] == SettingsEntry(settings)
      ensures SettingsKey !in store ==> settings == DefaultSettings()
    {
      if SettingsKey in store {
        return store[SettingsKey].settings;
      }
      return DefaultSettings();
    }

    method SaveUserSettings(settings: Settings)
      requires Valid()
      modifies this
      ensures Valid()
      ensures store == WriteSettings(old(store), settings)
    {
      store := store[SettingsKey := SettingsEntry(settings)];
    }

    method Logout(outcome: SignOutOutcome)
      requires Valid()
      modifies this
      ensures Valid()
      ensures store == LoggedOut(old(store), outcome)
    {
      if outcome.SignOutThrew? {
        return;
      }
      store := store - {UserKey, SessionKey, SettingsKey};
    }
  }
}

=== FILE: background.dfy ===
/**
 * The extension's background worker: the sign-in state it keeps in
 * `chrome.storage.local`, the usage counters, and the message handler the
 * popup and the content scripts talk to.
 *
 * Each asynchronous handler is one atomic step on the store. The clock
 * (`Date.now()`, `new Date()`), the manifest version, and what the backend
 * and Clerk answer are parameters.
 */
module Background {
  import opened Wrappers
  import opened Strings

  // The store.

  datatype User = User(id: string, email: string, firstName: string, lastName: string)

  /** `usageStats`: day -> enhancement type -> number of enhancements. */
  type UsageStats = map<string, map<string, nat>>

  /** A value the worker keeps under one of its keys. */
  datatype Entry =
    | Text(s: string)
    | Millis(ms: int)
    | Account(user: User)
    | Usage(stats: UsageStats)

  type Store = map<string, Entry>

  const UserKey := "user"
  const TokenKey := "authToken"
  const TimestampKey := "authTimestamp"
  const InstallDateKey := "installDate"
  const VersionKey := "version"
  const UsageKey := "usageStats"

  /** The keys sign-out clears. */
  const AuthKeys: set<string> := {UserKey, TokenKey, TimestampKey}

  /** A token is good for 24 hours. */
  const DayMillis := 24 * 60 * 60 * 1000

  /** Each key the worker writes holds the kind of value it writes there. */
  predicate WellTyped(st: Store) {
    && (UserKey in st ==> st[UserKey].Account?)
    && (TokenKey in st ==> st[TokenKey].Text?)
    && (TimestampKey in st ==> st[TimestampKey].Millis?)
    && (InstallDateKey in st ==> st[InstallDateKey].Text?)
    && (VersionKey in st ==> st[VersionKey].Text?)
    && (UsageKey in st ==> st[UsageKey].Usage?)
  }

  // Sign-in state.

  /** A user record and a non-empty token are stored (both must be truthy). */
  predicate HasCredentials(st: Store) {
    UserKey in st && st[UserKey].Account? && TokenKey in st && st[TokenKey].Text? && st[TokenKey].s != ""
  }

  /** `authTimestamp || 0`. */
  function IssuedAt(st: Store): int {
    if TimestampKey in st && st[TimestampKey].Millis? then st[TimestampKey].ms else 0
  }

  /** The token is older than a day. */
  predicate IsExpired(st: Store, now: int) {
    now - IssuedAt(st) > DayMillis
  }

  /** `handleLogout`: the three sign-in keys are removed. */
  function SignedOut(st: Store): (r: Store)
    ensures r.Keys == st.Keys - AuthKeys
    ensures forall k :: k in r ==> r[k] == st[k]
  {
    st - AuthKeys
  }

  datatype AuthStatus = Unauthenticated | Authenticated(user: User)

  datatype AuthCheck = AuthCheck(status: AuthStatus, store: Store)

  /** `checkAuthStatus`: what it answers and the store it leaves behind. */
  function CheckAuth(st: Store, now: int): (r: AuthCheck)
    ensures !HasCredentials(st) ==> r == AuthCheck(Unauthenticated, st)
  {
    if !HasCredentials(st) then AuthCheck(Unauthenticated, st)
    else if IsExpired(st, now) then AuthCheck(Unauthenticated, SignedOut(st))
    else AuthCheck(Authenticated(st[UserKey].user), st)
  }

  /**
   * A check authenticates exactly when a user and a token are stored and the
   * token is at most a day old; it then answers with the stored user and
   * changes nothing. Otherwise it either changes nothing (nothing to check)
   * or signs out, and every stored token older than a day signs out.
   */
  lemma CheckAuthMeaning(st: Store, now: int)
    ensures CheckAuth(st, now).status.Authenticated?
        <==> HasCredentials(st) && now - IssuedAt(st) <= DayMillis
    ensures CheckAuth(st, now).status.Authenticated? ==>
              CheckAuth(st, now).store == st && CheckAuth(st, now).status.user == st[UserKey].user
    ensures CheckAuth(st, now).status.Unauthenticated? ==>
              CheckAuth(st, now).store == st || CheckAuth(st, now).store == SignedOut(st)
    ensures HasCredentials(st) && now - IssuedAt(st) > DayMillis ==>
              CheckAuth(st, now) == AuthCheck(Unauthenticated, SignedOut(st))
  {
  }

  /** Checking again at the same moment answers the same and changes nothing more. */
  lemma CheckAuthIdempotent(st: Store, now: int)
    ensures CheckAuth(CheckAuth(st, now).store, now) == CheckAuth(st, now)
  {
    if HasCredentials(st) && IsExpired(st, now) {
      assert !HasCredentials(SignedOut(st));
    }
  }

  /** A token exactly a day old still counts; one millisecond more signs out. */
  lemma ExpiryBoundary(st: Store, now: int)
    requires HasCredentials(st) && now - IssuedAt(st) == DayMillis
    ensures CheckAuth(st, now).status == Authenticated(st[UserKey].user)
    ensures CheckAuth(st, now + 1) == AuthCheck(Unauthenticated, SignedOut(st))
  {
  }

  /** Without a timestamp the token counts as issued at time 0. */
  lemma MissingTimestampIsEpoch(st: Store, now: int)
    requires HasCredentials(st) && TimestampKey !in st
    ensures CheckAuth(st, now).status.Authenticated? <==> now <= DayMillis
  {
  }

  /** Signing out keeps what is well typed well typed, and is idempotent. */
  lemma SignedOutKeepsTyping(st: Store)
    requires WellTyped(st)
    ensures WellTyped(SignedOut(st))
    ensures SignedOut(SignedOut(st)) == SignedOut(st)
    ensures !HasCredentials(SignedOut(st))
  {
  }

  /** `handleInstall`: install date and version set, the user and token removed, nothing else touched. */
  function Installed(st: Store, isoDate: string, version: string): (r: Store)
    ensures r.Keys == (st.Keys + {InstallDateKey, VersionKey}) - {UserKey, TokenKey}
    ensures r[InstallDateKey] == Text(isoDate) && r[VersionKey] == Text(version)
    ensures forall k :: k in r && k !in {InstallDateKey, VersionKey} ==> r[k] == st[k]
  {
    st[InstallDateKey := Text(isoDate)][VersionKey := Text(version)] - {UserKey, TokenKey}
  }

  /** After an install nobody is signed in, but a stored timestamp survives it. */
  lemma InstallSignsOut(st: Store, isoDate: string, version: string, now: int)
    ensures CheckAuth(Installed(st, isoDate, version), now).status == Unauthenticated
    ensures TimestampKey in st ==> Installed(st, isoDate, version)[TimestampKey] == st[TimestampKey]
  {
  }

  // Tab updates: the simulated Clerk sign-in.

  /** `isClerkAuthUrl`. */
  predicate IsClerkAuthUrl(url: string) {
    Contains(url, "clerk.accounts.dev") || Contains(url, "your-clerk-domain")
  }

  /** The tab's new URL completes a sign-in. */
  predicate CompletesAuth(url: Option<string>) {
    url.Some? && IsClerkAuthUrl(url.value) && (Contains(url.value, "success") || Contains(url.value, "dashboard"))
  }

  /** The user `handleAuthCompletion` stores at time `now`. */
  function SimulatedUser(now: nat): User {
    User("user_" + Decimal(now), "user@example.com", "John", "Doe")
  }

  /** `handleAuthCompletion`: a user, a token and the time are stored. */
  function CompletedAuth(st: Store, now: nat): (r: Store)
    ensures r.Keys == st.Keys + AuthKeys
    ensures forall k :: k in r && k !in AuthKeys ==> r[k] == st[k]
    ensures r[TokenKey] == Text("jwt_token_" + Decimal(now)) && r[UserKey] == Account(SimulatedUser(now))
    ensures r[TimestampKey] == Millis(now)
  {
    st[UserKey := Account(SimulatedUser(now))][TokenKey := Text("jwt_token_" + Decimal(now))]
      [TimestampKey := Millis(now)]
  }

  /** `handleTabUpdate`. */
  function TabUpdated(st: Store, url: Option<string>, now: nat): (r: Store)
    ensures CompletesAuth(url) ==> r == CompletedAuth(st, now)
    ensures !CompletesAuth(url) ==> r == st
  {
    if CompletesAuth(url) then CompletedAuth(st, now) else st
  }

  /** A completed sign-in is authenticated for the next 24 hours and not a moment longer. */
  lemma CompletedAuthLastsADay(st: Store, now: nat, later: int)
    ensures CheckAuth(CompletedAuth(st, now), later).status.Authenticated? <==> later - now <= DayMillis
    ensures later - now <= DayMillis ==>
              CheckAuth(CompletedAuth(st, now), later).status == Authenticated(SimulatedUser(now))
  {
    var r := CompletedAuth(st, now);
    assert r[TokenKey].s == "jwt_token_" + Decimal(now);
    assert r[TokenKey].s[0] == 'j';
  }

  /** A URL that is not a Clerk page, or does not report success, leaves the store alone. */
  lemma TabUpdateNeedsClerkSuccess(st: Store, url: Option<string>, now: nat)
    ensures TabUpdated(st, url, now) != st ==> url.Some? && IsClerkAuthUrl(url.value)
    ensures TabUpdated(st, url, now) != st ==> Contains(url.value, "success") || Contains(url.value, "dashboard")
  {
  }

  // Usage counters.

  /** `stats[day][type] || 0`. */
  function Count(stats: UsageStats, day: string, kind: string): nat {
    if day in stats && kind in stats[day] then stats[day][kind] else 0
  }

  /** The counters after one more enhancement of type `kind` on `day`. */
  function Increment(stats: UsageStats, day: string, kind: string): (r: UsageStats)
    ensures Count(r, day, kind) == Count(stats, day, kind) + 1
    ensures forall d, k :: (d != day || k != kind) ==> Count(r, d, k) == Count(stats, d, k)
    ensures r.Keys == stats.Keys + {day}
    ensures r[day].Keys == (if day in stats then stats[day].Keys else {}) + {kind}
  {
    var counts := if day in stats then stats[day] else map[];
    stats[day := counts[kind := Count(stats, day, kind) + 1]]
  }

  /** `usageStats || {}`. */
  function StatsOf(st: Store): UsageStats {
    if UsageKey in st && st[UsageKey].Usage? then st[UsageKey].stats else map[]
  }

  /** `logUsage`: the counters written back with one more enhancement. */
  function LoggedUsage(st: Store, day: string, kind: string): (r: Store)
    ensures r.Keys == st.Keys + {UsageKey}
    ensures forall k :: k in r && k != UsageKey ==> r[k] == st[k]
    ensures r[UsageKey] == Usage(Increment(StatsOf(st), day, kind))
  {
    st[UsageKey := Usage(Increment(StatsOf(st), day, kind))]
  }

  // The request to the backend and what comes back.

  /** The body and the `Authorization` header of the `POST /api/enhance` request. */
  datatype ApiRequest = ApiRequest(authorization: string, prompt: Option<string>,
                                   enhancementType: Option<string>, userId: string)

  /** What `fetch` produced: a rejected promise, or a response and its parsed `enhancedPrompt`. */
  datatype FetchResult =
    | NetworkFailure(message: string)
    | Answered(status: nat, statusText: string, enhancedPrompt: Option<string>)

  const AuthRequired := "Authentication required"
  const SessionExpired := "Session expired. Please sign in again."

  /** `response.ok`. */
  predicate IsOk(status: nat) {
    200 <= status <= 299
  }

  function ApiError(status: nat, statusText: string): string {
    "API error: " + Decimal(status) + " " + statusText
  }

  /** The property name a missing `enhancementType` becomes when used as a key. */
  function UsageName(enhancementType: Option<string>): string {
    if enhancementType.Some? then enhancementType.value else "undefined"
  }

  /** `authData.authToken`. */
  function TokenOf(st: Store): string {
    if TokenKey in st && st[TokenKey].Text? then st[TokenKey].s else "undefined"
  }

  datatype EnhanceStep = EnhanceStep(outcome: Result<Option<string>, string>, request: Option<ApiRequest>, store: Store)

  /** `enhancePrompt`: its result or the message it throws, the request it sends, and the store after it. */
  function Enhance(st: Store, prompt: Option<string>, enhancementType: Option<string>,
                   now: int, today: string, answer: FetchResult): (r: EnhanceStep)
    ensures r.request.Some? ==> r.request.value.authorization == "Bearer " + TokenOf(st)
  {
    var check := CheckAuth(st, now);
    if check.status.Unauthenticated? then EnhanceStep(Failure(AuthRequired), None, check.store)
    else
      var request := ApiRequest("Bearer " + TokenOf(check.store), prompt, enhancementType, check.status.user.id);
      match answer
      case NetworkFailure(message) => EnhanceStep(Failure(message), Some(request), check.store)
      case Answered(status, statusText, enhancedPrompt) =>
        if IsOk(status) then
          EnhanceStep(Success(enhancedPrompt), Some(request),
                      LoggedUsage(check.store, today, UsageName(enhancementType)))
        else if status == 401 then EnhanceStep(Failure(SessionExpired), Some(request), SignedOut(check.store))
        else EnhanceStep(Failure(ApiError(status, statusText)), Some(request), check.store)
  }

  /** No request leaves without a valid sign-in; without one the answer is "Authentication required". */
  lemma EnhanceRequiresAuth(st: Store, prompt: Option<string>, enhancementType: Option<string>,
                            now: int, today: string, answer: FetchResult)
    ensures Enhance(st, prompt, enhancementType, now, today, answer).request.None?
        <==> CheckAuth(st, now).status.Unauthenticated?
    ensures CheckAuth(st, now).status.Unauthenticated? ==>
              Enhance(st, prompt, enhancementType, now, today, answer)
                == EnhanceStep(Failure(AuthRequired), None, CheckAuth(st, now).store)
    ensures CheckAuth(st, now).status.Authenticated? ==>
              Enhance(st, prompt, enhancementType, now, today, answer).request
                == Some(ApiRequest("Bearer " + TokenOf(st), prompt, enhancementType,
                                   CheckAuth(st, now).status.user.id))
  {
  }

  /** A 401 signs out and reports the expired session; any other failure status is reported with its number and text. */
  lemma EnhanceFailureStatus(st: Store, prompt: Option<string>, enhancementType: Option<string>,
                             now: int, today: string, status: nat, statusText: string, body: Option<string>)
    requires CheckAuth(st, now).status.Authenticated? && !IsOk(status)
    ensures status == 401 ==>
              Enhance(st, prompt, enhancementType, now, today, Answered(status, statusText, body)).outcome
                == Failure(SessionExpired)
              && Enhance(st, prompt, enhancementType, now, today, Answered(status, statusText, body)).store
                == SignedOut(st)
    ensures status != 401 ==>
              Enhance(st, prompt, enhancementType, now, today, Answered(status, statusText, body))
                == EnhanceStep(Failure(ApiError(status, statusText)),
                               Enhance(st, prompt, enhancementType, now, today, Answered(status, statusText, body)).request,
                               st)
  {
  }

  /** Different statuses give different API error messages. */
  lemma ApiErrorNamesStatus(a: nat, b: nat, text: string)
    requires ApiError(a, text) == ApiError(b, text)
    ensures a == b
  {
    var prefix := "API error: ";
    var ea, eb := ApiError(a, text), ApiError(b, text);
    assert ea == prefix + (Decimal(a) + (" " + text));
    assert eb == prefix + (Decimal(b) + (" " + text));
    assert ea[|prefix|..] == Decimal(a) + (" " + text);
    assert eb[|prefix|..] == Decimal(b) + (" " + text);
    DigitsBeforeSpace(Decimal(a), Decimal(b), " " + text);
    DecimalInjective(a, b);
  }

  /** Two digit strings followed by the same text that starts with a non-digit are equal. */
  lemma {:induction false} DigitsBeforeSpace(x: string, y: string, rest: string)
    requires forall i :: 0 <= i < |x| ==> IsDigit(x[i])
    requires forall i :: 0 <= i < |y| ==> IsDigit(y[i])
    requires |rest| > 0 && !IsDigit(rest[0])
    requires x + rest == y + rest
    ensures x == y
  {
    if |x| == |y| {
      assert x == (x + rest)[..|x|];
      assert y == (y + rest)[..|y|];
    }
  }

  /** A successful answer counts one enhancement of its type for `today` and leaves the sign-in alone. */
  lemma EnhanceSuccessLogsUsage(st: Store, prompt: Option<string>, enhancementType: Option<string>,
                                now: int, today: string, status: nat, statusText: string, body: Option<string>)
    requires CheckAuth(st, now).status.Authenticated? && IsOk(status)
    ensures var r := Enhance(st, prompt, enhancementType, now, today, Answered(status, statusText, body));
            && r.outcome == Success(body)
            && Count(StatsOf(r.store), today, UsageName(enhancementType))
               == Count(StatsOf(st), today, UsageName(enhancementType)) + 1
            && (forall k :: k in st && k != UsageKey ==> k in r.store && r.store[k] == st[k])
  {
  }

  // Messages.

  datatype Action = CheckAuthAction | EnhancePromptAction | LogoutAction | VerifyAuthAction

  function ActionName(a: Action): string {
    match a
    case CheckAuthAction => "checkAuth"
    case EnhancePromptAction => "enhancePrompt"
    case LogoutAction => "logout"
    case VerifyAuthAction => "verifyAuth"
  }

  /** The case of `handleMessage`'s switch an action selects. */
  function ParseAction(name: string): (r: Option<Action>)
    ensures r.Some? ==> ActionName(r.value) == name
  {
    if name == "checkAuth" then Some(CheckAuthAction)
    else if name == "enhancePrompt" then Some(EnhancePromptAction)
    else if name == "logout" then Some(LogoutAction)
    else if name == "verifyAuth" then Some(VerifyAuthAction)
    else None
  }

  /** Every action is selected by its own name, so the four cases are distinct. */
  lemma ParseActionName(a: Action)
    ensures ParseAction(ActionName(a)) == Some(a)
  {
  }

  /** A request from the popup or a content script (`request.action` absent reads as an unknown action). */
  datatype Message = Message(action: string, prompt: Option<string>, enhancementType: Option<string>)

  /** What `verifyAuthWithClerk` resolved to for the message's token. */
  datatype Verification = Verification(success: bool, user: Option<User>)

  /** The object passed to `sendResponse`. */
  datatype Reply =
    | AuthReply(authenticated: bool, user: Option<User>)
    | PromptReply(enhancedPrompt: Option<string>)
    | LogoutReply
    | VerifyReply(verified: bool, verifiedUser: Option<User>)
    | ErrorReply(error: string)

  /** The reply's `success` field. */
  function Succeeded(reply: Reply): bool {
    match reply
    case VerifyReply(verified, _) => verified
    case ErrorReply(_) => false
    case _ => true
  }

  datatype Dispatched = Dispatched(reply: Reply, request: Option<ApiRequest>, store: Store)

  /** `handleMessage`: the reply, the request sent to the backend if any, and the store afterwards. */
  function Dispatch(st: Store, msg: Message, now: int, today: string,
                    answer: FetchResult, verification: Verification): (r: Dispatched)
    ensures ParseAction(msg.action).None? ==> r == Dispatched(ErrorReply("Unknown action"), None, st)
  {
    match ParseAction(msg.action)
    case None => Dispatched(ErrorReply("Unknown action"), None, st)
    case Some(CheckAuthAction) =>
      var check := CheckAuth(st, now);
      var user := if check.status.Authenticated? then Some(check.status.user) else None;
      Dispatched(AuthReply(check.status.Authenticated?, user), None, check.store)
    case Some(EnhancePromptAction) =>
      var e := Enhance(st, msg.prompt, msg.enhancementType, now, today, answer);
      var reply := if e.outcome.Success? then PromptReply(e.outcome.value) else ErrorReply(e.outcome.error);
      Dispatched(reply, e.request, e.store)
    case Some(LogoutAction) => Dispatched(LogoutReply, None, SignedOut(st))
    case Some(VerifyAuthAction) => Dispatched(VerifyReply(verification.success, verification.user), None, st)
  }

  /**
   * Each known action does what its handler does and nothing else: only
   * `enhancePrompt` reaches the backend, only `checkAuth`, `enhancePrompt`
   * and `logout` change the store, and `verifyAuth` leaves it as it was.
   */
  lemma DispatchRoutes(st: Store, msg: Message, now: int, today: string,
                       answer: FetchResult, verification: Verification)
    ensures var r := Dispatch(st, msg, now, today, answer, verification);
            && (r.request.Some? ==> ParseAction(msg.action) == Some(EnhancePromptAction))
            && (ParseAction(msg.action) == Some(CheckAuthAction) ==>
                  r.store == CheckAuth(st, now).store
                  && r.reply.AuthReply?
                  && (r.reply.authenticated <==> CheckAuth(st, now).status.Authenticated?))
            && (ParseAction(msg.action) == Some(EnhancePromptAction) ==>
                  r.store == Enhance(st, msg.prompt, msg.enhancementType, now, today, answer).store
                  && r.request == Enhance(st, msg.prompt, msg.enhancementType, now, today, answer).request)
            && (ParseAction(msg.action) == Some(LogoutAction) ==> r == Dispatched(LogoutReply, None, SignedOut(st)))
            && (ParseAction(msg.action) == Some(VerifyAuthAction) ==>
                  r.store == st && Succeeded(r.reply) == verification.success)
  {
  }

  /** A handler that throws is answered with `success: false` and the thrown message. */
  lemma DispatchReportsErrors(st: Store, msg: Message, now: int, today: string,
                              answer: FetchResult, verification: Verification)
    ensures var r := Dispatch(st, msg, now, today, answer, verification);
            var e := Enhance(st, msg.prompt, msg.enhancementType, now, today, answer);
            ParseAction(msg.action) == Some(EnhancePromptAction) ==>
              (e.outcome.Failure? <==> r.reply.ErrorReply?)
              && (e.outcome.Failure? ==> r.reply == ErrorReply(e.outcome.error) && !Succeeded(r.reply))
              && (e.outcome.Success? ==> r.reply == PromptReply(e.outcome.value) && Succeeded(r.reply))
  {
  }

  /** Every step of the worker keeps the store well typed. */
  lemma DispatchKeepsTyping(st: Store, msg: Message, now: int, today: string,
                            answer: FetchResult, verification: Verification)
    requires WellTyped(st)
    ensures WellTyped(Dispatch(st, msg, now, today, answer, verification).store)
  {
  }

  /** The worker of the extension, holding `chrome.storage.local`. */
  class BackgroundManager {
    var store: Store

    predicate Valid()
      reads this
    {
      WellTyped(store)
    }

    constructor(initial: Store)
      requires WellTyped(initial)
      ensures Valid() && store == initial
    {
      store := initial;
    }

    method HandleInstall(isoDate: string, version: string)
      requires Valid()
      modifies this
      ensures Valid()
      ensures store == Installed(old(store), isoDate, version)
    {
      store := store[InstallDateKey := Text(isoDate)][VersionKey := Text(version)];
      store := store - {UserKey, TokenKey};
    }

    method HandleLogout()
      requires Valid()
      modifies this
      ensures Valid()
      ensures store == SignedOut(old(store))
    {
      store := store - AuthKeys;
    }

    method CheckAuthStatus(now: int) returns (status: AuthStatus)
      requires Valid()
      modifies this
      ensures Valid()
      ensures AuthCheck(status, store) == CheckAuth(old(store), now)
    {
      if !HasCredentials(store) {
        return Unauthenticated;
      }
      var tokenAge := now - IssuedAt(store);
      if tokenAge > DayMillis {
        HandleLogout();
        return Unauthenticated;
      }
      return Authenticated(store[UserKey].user);
    }

    method LogUsage(today: string, kind: string)
      requires Valid()
      modifies this
      ensures Valid()
      ensures store == LoggedUsage(old(store), today, kind)
    {
      var stats := StatsOf(store);
      var counts: map<string, nat> := if today in stats then stats[today] else map[];
      var count := if kind in counts then counts[kind] else 0;
      counts := counts[kind := count + 1];
      stats := stats[today := counts];
      store := store[UsageKey := Usage(stats)];
    }

    method EnhancePrompt(prompt: Option<string>, enhancementType: Option<string>,
                         now: int, today: string, answer: FetchResult)
      returns (outcome: Result<Option<string>, string>, request: Option<ApiRequest>)
      requires Valid()
      modifies this
      ensures Valid()
      ensures EnhanceStep(outcome, request, store)
           == Enhance(old(store), prompt, enhancementType, now, today, answer)
    {
      var status := CheckAuthStatus(now);
      if status.Unauthenticated? {
        return Failure(AuthRequired), None;
      }
      var sent := ApiRequest("Bearer " + TokenOf(store), prompt, enhancementType, status.user.id);
      request := Some(sent);
      match answer
      case NetworkFailure(message) =>
        outcome := Failure(message);
      case Answered(code, statusText, enhancedPrompt) =>
        if !IsOk(code) {
          if code == 401 {
            HandleLogout();
            outcome := Failure(SessionExpired);
          } else {
            outcome := Failure(ApiError(code, statusText));
          }
        } else {
          LogUsage(today, UsageName(enhancementType));
          outcome := Success(enhancedPrompt);
        }
    }

    method HandleAuthCompletion(now: nat)
      requires Valid()
      modifies this
      ensures Valid()
      ensures store == CompletedAuth(old(store), now)
    {
      var user := SimulatedUser(now);
      var token := "jwt_token_" + Decimal(now);
      store := store[UserKey := Account(user)][TokenKey := Text(token)][TimestampKey := Millis(now)];
    }

    method HandleTabUpdate(url: Option<string>, now: nat)
      requires Valid()
      modifies this
      ensures Valid()
      ensures store == TabUpdated(old(store), url, now)
    {
      if url.Some? && IsClerkAuthUrl(url.value) {
        if Contains(url.value, "success") || Contains(url.value, "dashboard") {
          HandleAuthCompletion(now);
        }
      }
    }

    method HandleMessage(msg: Message, now: int, today: string, answer: FetchResult, verification: Verification)
      returns (reply: Reply, request: Option<ApiRequest>)
      requires Valid()
      modifies this
      ensures Valid()
      ensures Dispatched(reply, request, store) == Dispatch(old(store), msg, now, today, answer, verification)
    {
      request := None;
      match ParseAction(msg.action)
      case None =>
        reply := ErrorReply("Unknown action");
      case Some(CheckAuthAction) =>
        var status := CheckAuthStatus(now);
        reply := AuthReply(status.Authenticated?, if status.Authenticated? then Some(status.user) else None);
      case Some(EnhancePromptAction) =>
        var outcome;
        outcome, request := EnhancePrompt(msg.prompt, msg.enhancementType, now, today, answer);
        reply := if outcome.Success? then PromptReply(outcome.value) else ErrorReply(outcome.error);
      case Some(LogoutAction) =>
        HandleLogout();
        reply := LogoutReply;
      case Some(VerifyAuthAction) =>
        reply := VerifyReply(verification.success, verification.user);
    }
  }
}

=== FILE: server.dfy ===
/**
 * The backend's `POST /api/enhance` endpoint with its rule-based rewriter,
 * used when no language-model key is configured.
 *
 * The request body is already parsed; the timestamp the response carries and
 * the index `Math.random` picks for the `creative` style are parameters.
 */
module Server {
  import opened Wrappers
  import opened Strings
  import opened Words

  const MaxTextLength := 5000
  /** Texts shorter than this get the short form of `improve`. */
  const ShortTextLimit := 50

  const TextRequired := "Text is required and must be a string"
  const TextTooLong := "Text too long. Maximum 5,000 characters."
  const EnhanceFailed := "Failed to enhance text. Please try again."
  const DefaultType := "improve"

  const ImproveShortSuffix := " This statement provides a clear and concise overview of the topic, offering valuable insights that can be further explored for deeper understanding."
  const ImproveLongPrefix := "Enhanced version: "
  const ImproveLongSuffix := " (This text has been improved for clarity and readability)"
  const ProfessionalSuffix := ". Furthermore, this approach ensures professional standards are maintained throughout the process."
  const CreativePrefixes: seq<string> := [
    "\U{2728} Imagine this: ",
    "\U{1F680} Picture this scenario: ",
    "\U{1F4A1} Here's an interesting perspective: ",
    "\U{1F3AD} Consider this creative angle: "
  ]
  const CreativeSuffix := " This opens up exciting possibilities for innovation and creative exploration."
  const EngagingPrefix := "Did you know that "
  const EngagingSuffix := "? This fascinating insight reveals something truly remarkable about our world and invites us to explore further!"

  /** The four styles of the `enhancements` table. */
  datatype Kind = Improve | Professional | Creative | Engaging

  function KindName(k: Kind): string {
    match k
    case Improve => "improve"
    case Professional => "professional"
    case Creative => "creative"
    case Engaging => "engaging"
  }

  /** The style an `enhancementType` names as an own key of the table, if any. */
  function ParseKind(name: string): (r: Option<Kind>)
    ensures r.Some? ==> KindName(r.value) == name
  {
    if name == "improve" then Some(Improve)
    else if name == "professional" then Some(Professional)
    else if name == "creative" then Some(Creative)
    else if name == "engaging" then Some(Engaging)
    else None
  }

  /** Every style is found under its own name, so the table has exactly four keys. */
  lemma ParseKindName(k: Kind)
    ensures ParseKind(KindName(k)) == Some(k)
  {
  }

  /** The index `Math.floor(Math.random() * 4)` picks. */
  type PrefixIndex = k: nat | k < 4

  // The four rewriters.

  /** `improve` only ever adds to the text. */
  function ImproveText(t: string): (r: string)
    ensures |r| > |t|
  {
    if |t| < ShortTextLimit then t + ImproveShortSuffix
    else ImproveLongPrefix + t + ImproveLongSuffix
  }

  /** The chain of five whole-word, case-insensitive replacements, then the suffix. */
  function ProfessionalText(t: string): (r: string)
    ensures EndsWith(r, ProfessionalSuffix)
  {
    var s1 := ReplaceWord(t, "i", "I");
    var s2 := ReplaceWord(s1, "wanna", "want to");
    var s3 := ReplaceWord(s2, "gonna", "going to");
    var s4 := ReplaceWord(s3, "cant", "cannot");
    var s5 := ReplaceWord(s4, "dont", "do not");
    s5 + ProfessionalSuffix
  }

  /** One of the four openers, the text, then the closing line. */
  function CreativeText(t: string, k: PrefixIndex): (r: string)
    ensures StartsWith(r, CreativePrefixes[k]) && EndsWith(r, CreativeSuffix)
    ensures |r| == |CreativePrefixes[k]| + |t| + |CreativeSuffix|
  {
    CreativePrefixes[k] + t + CreativeSuffix
  }

  /** The lower-cased text, framed by a fixed opener and closing line. */
  function EngagingText(t: string): (r: string)
    ensures StartsWith(r, EngagingPrefix) && EndsWith(r, EngagingSuffix)
    ensures |r| == |EngagingPrefix| + |t| + |EngagingSuffix|
  {
    EngagingPrefix + Lower(t) + EngagingSuffix
  }

  function Apply(kind: Kind, t: string, k: PrefixIndex): string {
    match kind
    case Improve => ImproveText(t)
    case Professional => ProfessionalText(t)
    case Creative => CreativeText(t, k)
    case Engaging => EngagingText(t)
  }

  /**
   * The rule-based path of `enhanceText`: the style the type names, and
   * `improve` for every type that is not one of the table's own keys.
   */
  function RuleBased(t: string, enhancementType: string, k: PrefixIndex): (r: string)
    ensures enhancementType !in {"improve", "professional", "creative", "engaging"} ==> r == ImproveText(t)
    ensures forall kind :: enhancementType == KindName(kind) ==> r == Apply(kind, t, k)
  {
    match ParseKind(enhancementType)
    case None => ImproveText(t)
    case Some(kind) => Apply(kind, t, k)
  }

  // What `enhancements[type] ? enhancements[type](text) : enhancements.improve(text)`
  // does when `type` names a member every object literal inherits.

  /** What calling a table entry yields: a string, some other value, or an exception. */
  datatype Outcome = Produced(text: string) | ProducedNonString | Threw

  /** Inherited members that return `"[object Object]"` when called on the table. */
  const InheritedToText: set<string> := {"toString", "toLocaleString"}
  /** Inherited members that return a boolean, the table itself, or `undefined`. */
  const InheritedNonString: set<string> := {"hasOwnProperty", "isPrototypeOf", "propertyIsEnumerable",
                                            "valueOf", "__lookupGetter__", "__lookupSetter__"}
  /** Inherited members whose call throws a `TypeError`. */
  const InheritedThrowing: set<string> := {"__defineGetter__", "__defineSetter__", "__proto__"}

  function InheritedNames(): set<string> {
    {"constructor"} + InheritedToText + InheritedNonString + InheritedThrowing
  }

  /** The lookup as written: own keys first, then the inherited members, then `improve`. */
  function RuleBasedAsWritten(t: string, enhancementType: string, k: PrefixIndex): (r: Outcome)
    ensures enhancementType !in InheritedNames() ==> r == Produced(RuleBased(t, enhancementType, k))
  {
    match ParseKind(enhancementType)
    case Some(kind) => Produced(Apply(kind, t, k))
    case None =>
      if enhancementType == "constructor" then Produced(t)  // a String wrapper, serialised as `t`
      else if enhancementType in InheritedToText then Produced("[object Object]")
      else if enhancementType in InheritedNonString then ProducedNonString
      else if enhancementType in InheritedThrowing then Threw
      else Produced(ImproveText(t))
  }

  /** The type `toString` is not a style, yet it does not fall back to `improve`. */
  lemma ToStringTypeSkipsFallback()
    ensures ParseKind("toString").None?
    ensures RuleBasedAsWritten("hello", "toString", 0) == Produced("[object Object]")
    ensures RuleBasedAsWritten("hello", "toString", 0) != Produced(ImproveText("hello"))
  {
    assert "toString" in InheritedToText;
    assert ImproveText("hello")[..5] == "hello";
  }

  // The endpoint.

  /** The `text` field of the request body: missing, a string, or any other JSON value. */
  datatype TextField = Absent | Str(s: string) | NonString

  datatype EnhanceRequest = EnhanceRequest(text: TextField, enhancementType: Option<string>)

  /** The `enhancedText` of a response: a string, or some other JSON value. */
  datatype EnhancedValue = TextValue(s: string) | NonTextValue

  datatype ResponseBody =
    | ErrorBody(error: string)
      /** `{success: true, originalText, enhancedText, enhancementType, timestamp}` */
    | SuccessBody(originalText: string, enhancedText: EnhancedValue, enhancementType: string, timestamp: string)

  datatype Response = Response(status: nat, body: ResponseBody)

  /** The two checks on `text`, in order: present, a string and non-empty; then at most 5,000 characters. */
  function ValidateText(text: TextField): (r: Result<string, string>)
    ensures r.Success? <==> text.Str? && 0 < |text.s| <= MaxTextLength
    ensures r.Success? ==> r.value == text.s
    ensures !(text.Str? && |text.s| > 0) ==> r == Failure(TextRequired)
    ensures text.Str? && |text.s| > MaxTextLength ==> r == Failure(TextTooLong)
  {
    match text
    case Str(s) =>
      if |s| == 0 then Failure(TextRequired)
      else if |s| > MaxTextLength then Failure(TextTooLong)
      else Success(s)
    case _ => Failure(TextRequired)
  }

  /** `enhancementType = 'improve'` in the destructuring of the body. */
  function TypeOrDefault(t: Option<string>): (r: string)
    ensures t.None? ==> r == "improve"
    ensures t.Some? ==> r == t.value
  {
    match t
    case Some(name) => name
    case None => DefaultType
  }

  /** The response the handler sends for a validated text and what the rewriter yielded. */
  function Respond(text: string, enhancementType: string, outcome: Outcome, timestamp: string): Response {
    match outcome
    case Produced(s) => Response(200, SuccessBody(text, TextValue(s), enhancementType, timestamp))
    case ProducedNonString => Response(200, SuccessBody(text, NonTextValue, enhancementType, timestamp))
    case Threw => Response(500, ErrorBody(EnhanceFailed))
  }

  /** `POST /api/enhance` with the rule-based rewriter and its own-key lookup. */
  function HandleEnhance(req: EnhanceRequest, timestamp: string, k: PrefixIndex): (resp: Response)
    ensures resp.status == 400 <==> ValidateText(req.text).Failure?
    ensures resp.status == 400 ==> resp.body == ErrorBody(ValidateText(req.text).error)
    ensures resp.status != 400 ==>
              && resp.status == 200
              && resp.body.SuccessBody?
              && resp.body.originalText == req.text.s
              && resp.body.enhancementType == TypeOrDefault(req.enhancementType)
              && resp.body.enhancedText == TextValue(RuleBased(req.text.s, TypeOrDefault(req.enhancementType), k))
              && resp.body.timestamp == timestamp
  {
    match ValidateText(req.text)
    case Failure(e) => Response(400, ErrorBody(e))
    case Success(text) =>
      var enhancementType := TypeOrDefault(req.enhancementType);
      Respond(text, enhancementType, Produced(RuleBased(text, enhancementType, k)), timestamp)
  }

  /** The same handler with the lookup as written. */
  function HandleEnhanceAsWritten(req: EnhanceRequest, timestamp: string, k: PrefixIndex): (resp: Response)
    ensures ValidateText(req.text).Failure? ==> resp == HandleEnhance(req, timestamp, k)
    ensures TypeOrDefault(req.enhancementType) !in InheritedNames() ==> resp == HandleEnhance(req, timestamp, k)
  {
    match ValidateText(req.text)
    case Failure(e) => Response(400, ErrorBody(e))
    case Success(text) =>
      var enhancementType := TypeOrDefault(req.enhancementType);
      Respond(text, enhancementType, RuleBasedAsWritten(text, enhancementType, k), timestamp)
  }

  /** A valid text with the type `__proto__` gets a 500 instead of the `improve` rewrite. */
  lemma ProtoTypeFailsRequest()
    ensures HandleEnhanceAsWritten(EnhanceRequest(Str("hello"), Some("__proto__")), "t", 0)
         == Response(500, ErrorBody(EnhanceFailed))
    ensures HandleEnhance(EnhanceRequest(Str("hello"), Some("__proto__")), "t", 0).status == 200
  {
    assert "__proto__" in InheritedThrowing;
  }

  // What each rewriter promises.

  predicate StartsWith(s: string, prefix: string) {
    |prefix| <= |s| && s[..|prefix|] == prefix
  }

  predicate EndsWith(s: string, suffix: string) {
    |suffix| <= |s| && s[|s| - |suffix|..] == suffix
  }

  /** The text `improve` was given, read back from its output. */
  function RecoverImproved(r: string): Option<string> {
    if EndsWith(r, ImproveShortSuffix) && |r| - |ImproveShortSuffix| < ShortTextLimit then
      Some(r[..|r| - |ImproveShortSuffix|])
    else if StartsWith(r, ImproveLongPrefix) && EndsWith(r, ImproveLongSuffix)
            && |r| - |ImproveLongPrefix| - |ImproveLongSuffix| >= ShortTextLimit then
      Some(r[|ImproveLongPrefix|..|r| - |ImproveLongSuffix|])
    else None
  }

  /** `improve` keeps its input whole: a short text leads its output, a long one follows the prefix. */
  lemma ImproveKeepsInput(t: string)
    ensures |t| < ShortTextLimit ==> OccursAt(t, ImproveText(t), 0) && EndsWith(ImproveText(t), ImproveShortSuffix)
    ensures |t| >= ShortTextLimit ==>
      (OccursAt(t, ImproveText(t), |ImproveLongPrefix|)
       && StartsWith(ImproveText(t), ImproveLongPrefix)
       && EndsWith(ImproveText(t), ImproveLongSuffix))
  {
    var r := ImproveText(t);
    if |t| < ShortTextLimit {
      assert r[..|t|] == t;
    } else {
      assert r[|ImproveLongPrefix|..|ImproveLongPrefix| + |t|] == t;
    }
  }

  /** A string framed by a prefix and a suffix gives back all three parts. */
  lemma FrameParts(p: string, t: string, q: string)
    ensures StartsWith(p + t + q, p) && EndsWith(p + t + q, q)
    ensures (p + t + q)[|p|..|p + t + q| - |q|] == t
  {
    var r := p + t + q;
    assert r[..|p|] == p;
    assert r[|r| - |q|..] == q;
    assert r[|p|..|r| - |q|] == t;
  }

  /** Two suffixes with different last characters cannot both end a string. */
  lemma EndsWithLastChar(r: string, q: string)
    requires EndsWith(r, q) && |q| > 0
    ensures r[|r| - 1] == q[|q| - 1]
  {
    assert r[|r| - |q|..][|q| - 1] == r[|r| - 1];
  }

  lemma ImproveSuffixEnds()
    ensures |ImproveShortSuffix| > 0 && ImproveShortSuffix[|ImproveShortSuffix| - 1] == '.'
    ensures |ImproveLongSuffix| > 0 && ImproveLongSuffix[|ImproveLongSuffix| - 1] == ')'
  {
  }

  /** The input can be read back from every output of `improve`, so no two texts share one. */
  lemma ImproveRoundTrip(t: string)
    ensures RecoverImproved(ImproveText(t)) == Some(t)
  {
    var r := ImproveText(t);
    if |t| < ShortTextLimit {
      FrameParts("", t, ImproveShortSuffix);
      assert "" + t + ImproveShortSuffix == r;
    } else {
      FrameParts(ImproveLongPrefix, t, ImproveLongSuffix);
      ImproveSuffixEnds();
      if EndsWith(r, ImproveShortSuffix) {
        EndsWithLastChar(r, ImproveShortSuffix);
        EndsWithLastChar(r, ImproveLongSuffix);
      }
    }
  }

  /** The per-word effect of `professional`: the five formal replacements, matched up to case. */
  function Formal(x: string): string {
    var l := Lower(x);
    if l == "i" then "I"
    else if l == "wanna" then "want to"
    else if l == "gonna" then "going to"
    else if l == "cant" then "cannot"
    else if l == "dont" then "do not"
    else x
  }

  lemma LowerNoUpper(s: string)
    requires forall i :: 0 <= i < |s| ==> !('A' <= s[i] <= 'Z')
    ensures Lower(s) == s
  {
  }

  // The patterns and the words of the replacements are already lower case, one literal at a time.

  lemma LowerOfI()
    ensures Lower("i") == "i"
  {
    LowerNoUpper("i");
  }

  lemma LowerOfWanna()
    ensures Lower("wanna") == "wanna"
  {
    LowerNoUpper("wanna");
  }

  lemma LowerOfGonna()
    ensures Lower("gonna") == "gonna"
  {
    LowerNoUpper("gonna");
  }

  lemma LowerOfCant()
    ensures Lower("cant") == "cant"
  {
    LowerNoUpper("cant");
  }

  lemma LowerOfDont()
    ensures Lower("dont") == "dont"
  {
    LowerNoUpper("dont");
  }

  lemma LowerOfWant()
    ensures Lower("want") == "want"
  {
    LowerNoUpper("want");
  }

  lemma LowerOfTo()
    ensures Lower("to") == "to"
  {
    LowerNoUpper("to");
  }

  lemma LowerOfGoing()
    ensures Lower("going") == "going"
  {
    LowerNoUpper("going");
  }

  lemma LowerOfCannot()
    ensures Lower("cannot") == "cannot"
  {
    LowerNoUpper("cannot");
  }

  lemma LowerOfDo()
    ensures Lower("do") == "do"
  {
    LowerNoUpper("do");
  }

  lemma LowerOfNot()
    ensures Lower("not") == "not"
  {
    LowerNoUpper("not");
  }

  /** The upper-case `I` reads as the pattern `i`. */
  lemma LowerCapitalI()
    ensures Lower("I") == "i"
  {
    assert Lower("I") == [LowerChar('I')];
  }

  /** A word the rule does not name passes through it unchanged. */
  lemma RuleKeeps(x: string, w: string, r: string)
    requires IsWord(x) && IsWord(w)
    requires Lower(w) == w && Lower(x) != w
    ensures MapWords(x, WordRule(w, r)) == x
  {
    MapOneWord(x, WordRule(w, r));
  }

  /** A word the rule names becomes the replacement. */
  lemma RuleHits(x: string, w: string, r: string)
    requires IsWord(x) && IsWord(w)
    requires Lower(w) == w && Lower(x) == w
    ensures MapWords(x, WordRule(w, r)) == r
  {
    MapOneWord(x, WordRule(w, r));
  }

  /** A two-word replacement is made of words the rule does not name. */
  lemma RuleKeepsPair(a: string, b: string, w: string, r: string)
    requires IsWord(a) && IsWord(b) && IsWord(w)
    requires Lower(w) == w && Lower(a) == a && Lower(b) == b && a != w && b != w
    ensures MapWords(a + " " + b, WordRule(w, r)) == a + " " + b
  {
    MapTwoWords(a, b, WordRule(w, r));
  }

  /** The chain of five global replacements, seen one word at a time. */
  function ChainRule(): string -> string {
    Then(Then(Then(Then(WordRule("i", "I"), WordRule("wanna", "want to")),
                   WordRule("gonna", "going to")), WordRule("cant", "cannot")),
         WordRule("dont", "do not"))
  }

  // Each replacement on its own, on one word: a word it does not name passes, one it names is replaced.

  lemma SkipI(x: string)
    requires IsWord(x) && Lower(x) != "i"
    ensures MapWords(x, WordRule("i", "I")) == x
  {
    LowerOfI();
    RuleKeeps(x, "i", "I");
  }

  lemma SkipWanna(x: string)
    requires IsWord(x) && Lower(x) != "wanna"
    ensures MapWords(x, WordRule("wanna", "want to")) == x
  {
    LowerOfWanna();
    RuleKeeps(x, "wanna", "want to");
  }

  lemma SkipGonna(x: string)
    requires IsWord(x) && Lower(x) != "gonna"
    ensures MapWords(x, WordRule("gonna", "going to")) == x
  {
    LowerOfGonna();
    RuleKeeps(x, "gonna", "going to");
  }

  lemma SkipCant(x: string)
    requires IsWord(x) && Lower(x) != "cant"
    ensures MapWords(x, WordRule("cant", "cannot")) == x
  {
    LowerOfCant();
    RuleKeeps(x, "cant", "cannot");
  }

  lemma SkipDont(x: string)
    requires IsWord(x) && Lower(x) != "dont"
    ensures MapWords(x, WordRule("dont", "do not")) == x
  {
    LowerOfDont();
    RuleKeeps(x, "dont", "do not");
  }

  lemma HitI(x: string)
    requires IsWord(x) && Lower(x) == "i"
    ensures MapWords(x, WordRule("i", "I")) == "I"
  {
    LowerOfI();
    RuleHits(x, "i", "I");
  }

  lemma HitWanna(x: string)
    requires IsWord(x) && Lower(x) == "wanna"
    ensures MapWords(x, WordRule("wanna", "want to")) == "want to"
  {
    LowerOfWanna();
    RuleHits(x, "wanna", "want to");
  }

  lemma HitGonna(x: string)
    requires IsWord(x) && Lower(x) == "gonna"
    ensures MapWords(x, WordRule("gonna", "going to")) == "going to"
  {
    LowerOfGonna();
    RuleHits(x, "gonna", "going to");
  }

  lemma HitCant(x: string)
    requires IsWord(x) && Lower(x) == "cant"
    ensures MapWords(x, WordRule("cant", "cannot")) == "cannot"
  {
    LowerOfCant();
    RuleHits(x, "cant", "cannot");
  }

  lemma HitDont(x: string)
    requires IsWord(x) && Lower(x) == "dont"
    ensures MapWords(x, WordRule("dont", "do not")) == "do not"
  {
    LowerOfDont();
    RuleHits(x, "dont", "do not");
  }

  /** "I" is named by no later replacement. */
  lemma CapitalIPasses()
    ensures MapWords("I", WordRule("wanna", "want to")) == "I"
    ensures MapWords("I", WordRule("gonna", "going to")) == "I"
    ensures MapWords("I", WordRule("cant", "cannot")) == "I"
    ensures MapWords("I", WordRule("dont", "do not")) == "I"
  {
    LowerCapitalI();
    SkipWanna("I"); SkipGonna("I"); SkipCant("I"); SkipDont("I");
  }

  lemma WantToSkipsGonna()
    ensures MapWords("want to", WordRule("gonna", "going to")) == "want to"
  {
    LowerOfWant(); LowerOfTo(); LowerOfGonna();
    assert "want" + " " + "to" == "want to";
    RuleKeepsPair("want", "to", "gonna", "going to");
  }

  lemma WantToSkipsCant()
    ensures MapWords("want to", WordRule("cant", "cannot")) == "want to"
  {
    LowerOfWant(); LowerOfTo(); LowerOfCant();
    assert "want" + " " + "to" == "want to";
    RuleKeepsPair("want", "to", "cant", "cannot");
  }

  lemma WantToSkipsDont()
    ensures MapWords("want to", WordRule("dont", "do not")) == "want to"
  {
    LowerOfWant(); LowerOfTo(); LowerOfDont();
    assert "want" + " " + "to" == "want to";
    RuleKeepsPair("want", "to", "dont", "do not");
  }

  lemma GoingToSkipsCant()
    ensures MapWords("going to", WordRule("cant", "cannot")) == "going to"
  {
    LowerOfGoing(); LowerOfTo(); LowerOfCant();
    assert "going" + " " + "to" == "going to";
    RuleKeepsPair("going", "to", "cant", "cannot");
  }

  lemma GoingToSkipsDont()
    ensures MapWords("going to", WordRule("dont", "do not")) == "going to"
  {
    LowerOfGoing(); LowerOfTo(); LowerOfDont();
    assert "going" + " " + "to" == "going to";
    RuleKeepsPair("going", "to", "dont", "do not");
  }

  lemma CannotPasses()
    ensures MapWords("cannot", WordRule("dont", "do not")) == "cannot"
  {
    LowerOfCannot();
    SkipDont("cannot");
  }

  lemma ChainOnI(x: string)
    requires IsWord(x) && Lower(x) == "i"
    ensures ChainRule()(x) == "I"
  {
    MapOneWord(x, WordRule("i", "I"));
    HitI(x);
    CapitalIPasses();
  }

  lemma ChainOnWanna(x: string)
    requires IsWord(x) && Lower(x) == "wanna"
    ensures ChainRule()(x) == "want to"
  {
    MapOneWord(x, WordRule("i", "I"));
    SkipI(x);
    HitWanna(x);
    WantToSkipsGonna();
    WantToSkipsCant();
    WantToSkipsDont();
  }

  lemma ChainOnGonna(x: string)
    requires IsWord(x) && Lower(x) == "gonna"
    ensures ChainRule()(x) == "going to"
  {
    MapOneWord(x, WordRule("i", "I"));
    SkipI(x);
    SkipWanna(x);
    HitGonna(x);
    GoingToSkipsCant();
    GoingToSkipsDont();
  }

  lemma ChainOnCant(x: string)
    requires IsWord(x) && Lower(x) == "cant"
    ensures ChainRule()(x) == "cannot"
  {
    MapOneWord(x, WordRule("i", "I"));
    SkipI(x);
    SkipWanna(x);
    SkipGonna(x);
    HitCant(x);
    CannotPasses();
  }

  lemma ChainOnDont(x: string)
    requires IsWord(x) && Lower(x) == "dont"
    ensures ChainRule()(x) == "do not"
  {
    MapOneWord(x, WordRule("i", "I"));
    SkipI(x);
    SkipWanna(x);
    SkipGonna(x);
    SkipCant(x);
    HitDont(x);
  }

  lemma ChainOnOther(x: string)
    requires IsWord(x)
    requires Lower(x) != "i" && Lower(x) != "wanna" && Lower(x) != "gonna"
    requires Lower(x) != "cant" && Lower(x) != "dont"
    ensures ChainRule()(x) == x
  {
    MapOneWord(x, WordRule("i", "I"));
    SkipI(x);
    SkipWanna(x);
    SkipGonna(x);
    SkipCant(x);
    SkipDont(x);
  }

  /** On one word, the five replacements in a row do what Formal says. */
  lemma ChainOnWord(x: string)
    requires IsWord(x)
    ensures ChainRule()(x) == Formal(x)
  {
    var l := Lower(x);
    if l == "i" {
      ChainOnI(x);
    } else if l == "wanna" {
      ChainOnWanna(x);
    } else if l == "gonna" {
      ChainOnGonna(x);
    } else if l == "cant" {
      ChainOnCant(x);
    } else if l == "dont" {
      ChainOnDont(x);
    } else {
      ChainOnOther(x);
    }
  }

  /**
   * `professional` rewrites each maximal run of word characters on its own,
   * by Formal, keeps every other character in place, and appends its suffix.
   */
  lemma {:induction false} ProfessionalIsWordwise(t: string)
    ensures ProfessionalText(t) == MapWords(t, Formal) + ProfessionalSuffix
  {
    var r1, r2, r3 := WordRule("i", "I"), WordRule("wanna", "want to"), WordRule("gonna", "going to");
    var r4, r5 := WordRule("cant", "cannot"), WordRule("dont", "do not");
    var s1 := ReplaceWord(t, "i", "I");
    var s2 := ReplaceWord(s1, "wanna", "want to");
    var s3 := ReplaceWord(s2, "gonna", "going to");
    var s4 := ReplaceWord(s3, "cant", "cannot");
    var s5 := ReplaceWord(s4, "dont", "do not");
    ReplaceWordIsMapWords(t, "i", "I");
    ReplaceWordIsMapWords(s1, "wanna", "want to");
    MapWordsThen(t, r1, r2);
    ReplaceWordIsMapWords(s2, "gonna", "going to");
    MapWordsThen(t, Then(r1, r2), r3);
    ReplaceWordIsMapWords(s3, "cant", "cannot");
    MapWordsThen(t, Then(Then(r1, r2), r3), r4);
    ReplaceWordIsMapWords(s4, "dont", "do not");
    MapWordsThen(t, Then(Then(Then(r1, r2), r3), r4), r5);
    forall x | IsWord(x)
      ensures ChainRule()(x) == Formal(x)
    {
      ChainOnWord(x);
    }
    MapWordsCongruent(t, ChainRule(), Formal);
  }

  /** A lower-case word that is none of the five patterns is its own formal rewording. */
  lemma FormalKeeps(w: string)
    requires IsWord(w) && Lower(w) == w
    requires w != "i" && w != "wanna" && w != "gonna" && w != "cant" && w != "dont"
    ensures MapWords(w, Formal) == w
  {
    MapOneWord(w, Formal);
  }

  /** A two-word replacement of lower-case words is its own formal rewording. */
  lemma FormalKeepsPair(a: string, b: string)
    requires IsWord(a) && Lower(a) == a && IsWord(b) && Lower(b) == b
    requires a != "i" && a != "wanna" && a != "gonna" && a != "cant" && a != "dont"
    requires b != "i" && b != "wanna" && b != "gonna" && b != "cant" && b != "dont"
    ensures MapWords(a + " " + b, Formal) == a + " " + b
  {
    MapTwoWords(a, b, Formal);
  }

  lemma FormalOnCapitalI()
    ensures MapWords("I", Formal) == "I"
  {
    LowerCapitalI();
    MapOneWord("I", Formal);
  }

  lemma FormalOnWantTo()
    ensures MapWords("want to", Formal) == "want to"
  {
    LowerOfWant(); LowerOfTo();
    assert "want" + " " + "to" == "want to";
    FormalKeepsPair("want", "to");
  }

  lemma FormalOnGoingTo()
    ensures MapWords("going to", Formal) == "going to"
  {
    LowerOfGoing(); LowerOfTo();
    assert "going" + " " + "to" == "going to";
    FormalKeepsPair("going", "to");
  }

  lemma FormalOnCannot()
    ensures MapWords("cannot", Formal) == "cannot"
  {
    LowerOfCannot();
    FormalKeeps("cannot");
  }

  lemma FormalOnDoNot()
    ensures MapWords("do not", Formal) == "do not"
  {
    LowerOfDo(); LowerOfNot();
    assert "do" + " " + "not" == "do not";
    FormalKeepsPair("do", "not");
  }

  /** Rewording one word twice is rewording it once. */
  lemma FormalTwiceOnWord(x: string)
    requires IsWord(x)
    ensures Then(Formal, Formal)(x) == Formal(x)
  {
    var l := Lower(x);
    if l == "i" {
      FormalOnCapitalI();
    } else if l == "wanna" {
      FormalOnWantTo();
    } else if l == "gonna" {
      FormalOnGoingTo();
    } else if l == "cant" {
      FormalOnCannot();
    } else if l == "dont" {
      FormalOnDoNot();
    } else {
      MapOneWord(x, Formal);
    }
  }

  /** The formal rewording is idempotent: rewording its own output changes nothing. */
  lemma {:induction false} FormalIdempotent(t: string)
    ensures MapWords(MapWords(t, Formal), Formal) == MapWords(t, Formal)
  {
    MapWordsThen(t, Formal, Formal);
    forall x | IsWord(x)
      ensures Then(Formal, Formal)(x) == Formal(x)
    {
      FormalTwiceOnWord(x);
    }
    MapWordsCongruent(t, Then(Formal, Formal), Formal);
  }

  /** The style and the text `creative` was given, read back from its output. */
  function RecoverCreative(r: string): Option<(PrefixIndex, string)> {
    if !EndsWith(r, CreativeSuffix) then None
    else if StartsWith(r, CreativePrefixes[0]) && |CreativePrefixes[0]| + |CreativeSuffix| <= |r| then
      Some((0, r[|CreativePrefixes[0]|..|r| - |CreativeSuffix|]))
    else if StartsWith(r, CreativePrefixes[1]) && |CreativePrefixes[1]| + |CreativeSuffix| <= |r| then
      Some((1, r[|CreativePrefixes[1]|..|r| - |CreativeSuffix|]))
    else if StartsWith(r, CreativePrefixes[2]) && |CreativePrefixes[2]| + |CreativeSuffix| <= |r| then
      Some((2, r[|CreativePrefixes[2]|..|r| - |CreativeSuffix|]))
    else if StartsWith(r, CreativePrefixes[3]) && |CreativePrefixes[3]| + |CreativeSuffix| <= |r| then
      Some((3, r[|CreativePrefixes[3]|..|r| - |CreativeSuffix|]))
    else None
  }

  /** A `creative` output is exactly one prefix, then the text, then the suffix: both can be read back. */
  lemma CreativeRoundTrip(t: string, k: PrefixIndex)
    ensures RecoverCreative(CreativeText(t, k)) == Some((k, t))
  {
    var p := CreativePrefixes[k];
    var r := CreativeText(t, k);
    assert r[|p|..|r| - |CreativeSuffix|] == t;
    assert r[|r| - |CreativeSuffix|..] == CreativeSuffix;
    assert r[0] == p[0];
    forall j: PrefixIndex | j < k
      ensures !StartsWith(r, CreativePrefixes[j])
    {
      assert CreativePrefixes[j][0] != p[0];
    }
    assert r[..|p|] == p;
  }

  /** Two texts get the same `engaging` output exactly when they agree up to ASCII case. */
  lemma EngagingSameIffSameLowercase(t: string, u: string)
    ensures EngagingText(t) == EngagingText(u) <==> Lower(t) == Lower(u)
  {
    var a, b := EngagingText(t), EngagingText(u);
    if a == b {
      assert a[|EngagingPrefix|..|a| - |EngagingSuffix|] == Lower(t);
      assert b[|EngagingPrefix|..|b| - |EngagingSuffix|] == Lower(u);
    }
  }

  /** The middle part of a framed string sits right after the prefix, character for character. */
  lemma MiddleChars(p: string, m: string, q: string)
    ensures OccursAt(m, p + m + q, |p|)
    ensures forall i :: |p| <= i < |p| + |m| ==> (p + m + q)[i] == m[i - |p|]
  {
    assert (p + m + q)[|p|..|p| + |m|] == m;
  }

  /** `engaging` shows the text lower-cased, and no upper-case ASCII letter of it survives. */
  lemma EngagingLowercases(t: string)
    ensures OccursAt(Lower(t), EngagingText(t), |EngagingPrefix|)
    ensures forall i :: |EngagingPrefix| <= i < |EngagingPrefix| + |t| ==> !('A' <= EngagingText(t)[i] <= 'Z')
  {
    MiddleChars(EngagingPrefix, Lower(t), EngagingSuffix);
  }
}

=== FILE: strings.dfy ===
/**
 * String helpers with the semantics the extension and the backend rely on:
 * the word characters of a JavaScript regular expression without the `u` flag,
 * ASCII lower-casing, `String.prototype.includes`, and the decimal rendering
 * of a non-negative number.
 */
module Strings {

  /** `\w` in a JavaScript regular expression without the `u` flag: `[A-Za-z0-9_]`. */
  predicate IsWordChar(c: char) {
    ('a' <= c <= 'z') || ('A' <= c <= 'Z') || ('0' <= c <= '9') || c == '_'
  }

  /** ASCII lower-casing of one character; every other character is left alone. */
  function LowerChar(c: char): (d: char)
    ensures IsWordChar(d) <==> IsWordChar(c)
    ensures !('A' <= c <= 'Z') ==> d == c
    ensures 'A' <= c <= 'Z' ==> 'a' <= d <= 'z' && d as int - c as int == 32
  {
    if 'A' <= c <= 'Z' then (c as int + 32) as char else c
  }

  /** ASCII lower-casing of a string, character by character. */
  function Lower(s: string): (r: string)
    ensures |r| == |s|
    ensures forall i :: 0 <= i < |s| ==> r[i] == LowerChar(s[i])
  {
    if |s| == 0 then "" else [LowerChar(s[0])] + Lower(s[1..])
  }

  /** Lower-casing twice is lower-casing once. */
  lemma LowerIdempotent(s: string)
    ensures Lower(Lower(s)) == Lower(s)
  {
  }

  /** `sub` occurs in `s` starting at position `i`. */
  predicate OccursAt(sub: string, s: string, i: int) {
    0 <= i <= |s| - |sub| && s[i..i + |sub|] == sub
  }

  /** `sub` occurs in `s` at some position: the reference meaning of `includes`. */
  ghost predicate Occurs(sub: string, s: string) {
    exists i :: OccursAt(sub, s, i)
  }

  /** `s.includes(sub)`: a left-to-right search for `sub` in `s`. */
  predicate Contains(s: string, sub: string)
    decreases |s|
  {
    if |sub| > |s| then false
    else if s[..|sub|] == sub then true
    else Contains(s[1..], sub)
  }

  /** The search finds `sub` exactly when it occurs somewhere in `s`. */
  lemma {:induction false} ContainsIffOccurs(s: string, sub: string)
    ensures Contains(s, sub) <==> Occurs(sub, s)
    decreases |s|
  {
    if |sub| > |s| {
    } else if s[..|sub|] == sub {
      assert OccursAt(sub, s, 0);
    } else {
      ContainsIffOccurs(s[1..], sub);
      if Contains(s[1..], sub) {
        var i :| OccursAt(sub, s[1..], i);
        assert s[i + 1..i + 1 + |sub|] == s[1..][i..i + |sub|];
        assert OccursAt(sub, s, i + 1);
      }
      if Occurs(sub, s) {
        var i :| OccursAt(sub, s, i);
        assert i != 0;
        assert s[1..][i - 1..i - 1 + |sub|] == s[i..i + |sub|];
        assert OccursAt(sub, s[1..], i - 1);
      }
    }
  }

  /** The characters `0` to `9`. */
  predicate IsDigit(c: char) {
    '0' <= c <= '9'
  }

  /** The value of one decimal digit. */
  function DigitValue(c: char): (d: nat)
    requires IsDigit(c)
    ensures d < 10
  {
    c as int - '0' as int
  }

  function DigitChar(d: nat): (c: char)
    requires d < 10
    ensures IsDigit(c) && DigitValue(c) == d
  {
    (d + '0' as int) as char
  }

  /** The decimal rendering of `n`, as `String(n)` or a template literal produces it. */
  function Decimal(n: nat): (r: string)
    ensures |r| >= 1
    ensures forall i :: 0 <= i < |r| ==> IsDigit(r[i])
    ensures r[0] == '0' ==> n == 0
    decreases n
  {
    if n < 10 then [DigitChar(n)] else Decimal(n / 10) + [DigitChar(n % 10)]
  }

  /** The number a string of decimal digits denotes. */
  function DecimalValue(s: string): nat
    requires forall i :: 0 <= i < |s| ==> IsDigit(s[i])
  {
    if |s| == 0 then 0 else 10 * DecimalValue(s[..|s| - 1]) + DigitValue(s[|s| - 1])
  }

  /** Reading the decimal rendering back gives the number: the rendering loses nothing. */
  lemma {:induction false} DecimalRoundTrip(n: nat)
    ensures DecimalValue(Decimal(n)) == n
    decreases n
  {
    if n >= 10 {
      var s := Decimal(n);
      assert s[..|s| - 1] == Decimal(n / 10);
      DecimalRoundTrip(n / 10);
    }
  }

  /** Distinct numbers have distinct renderings. */
  lemma DecimalInjective(m: nat, n: nat)
    requires Decimal(m) == Decimal(n)
    ensures m == n
  {
    DecimalRoundTrip(m);
    DecimalRoundTrip(n);
  }
}

=== FILE: words.dfy ===
/**
 * Whole-word, case-insensitive replacement as `s.replace(/\bw\b/gi, r)`
 * performs it, and a word-by-word reference it is proved equal to.
 *
 * A regular expression without the `u` flag takes `\w` to be `[A-Za-z0-9_]`
 * and folds case only between ASCII letters, so both are modelled on ASCII.
 */
module Words {
  import opened Strings

  /** A non-empty run of word characters. */
  predicate IsWord(x: string) {
    |x| > 0 && forall i :: 0 <= i < |x| ==> IsWordChar(x[i])
  }

  /** The length of the longest prefix of `s` made of word characters. */
  function RunLen(s: string): (n: nat)
    ensures n <= |s|
    ensures forall i :: 0 <= i < n ==> IsWordChar(s[i])
    ensures n == |s| || !IsWordChar(s[n])
    ensures |s| > 0 && IsWordChar(s[0]) ==> n >= 1
  {
    if |s| > 0 && IsWordChar(s[0]) then 1 + RunLen(s[1..]) else 0
  }

  /** The three properties of RunLen single out one length. */
  lemma RunLenUnique(s: string, m: nat)
    requires m <= |s|
    requires forall i :: 0 <= i < m ==> IsWordChar(s[i])
    requires m == |s| || !IsWordChar(s[m])
    ensures RunLen(s) == m
  {
  }

  /**
   * Does `\bw\b` (case-insensitive) match at the start of `s`, given that the
   * character before it is not a word character? `w` is a word, so the leading
   * `\b` holds there, and the trailing one asks that the match end the run.
   */
  predicate MatchesAt(s: string, w: string) {
    |w| <= |s| && Lower(s[..|w|]) == Lower(w) && (|w| == |s| || !IsWordChar(s[|w|]))
  }

  /**
   * The global replace scanning `s` left to right; `afterWord` says whether the
   * character just before the scan position is a word character. After a match
   * the scan resumes behind it, otherwise one character further on.
   */
  function ReplaceFrom(s: string, w: string, r: string, afterWord: bool): string
    requires IsWord(w)
    decreases |s|
  {
    if |s| == 0 then ""
    else if !afterWord && MatchesAt(s, w) then r + ReplaceFrom(s[|w|..], w, r, true)
    else [s[0]] + ReplaceFrom(s[1..], w, r, IsWordChar(s[0]))
  }

  /** `s.replace(/\bw\b/gi, r)`. */
  function ReplaceWord(s: string, w: string, r: string): string
    requires IsWord(w)
  {
    ReplaceFrom(s, w, r, false)
  }

  /**
   * The reference: cut `s` into maximal runs of word characters and single
   * other characters, apply `f` to every run and keep every other character.
   */
  function MapWords(s: string, f: string -> string): string
    decreases |s|
  {
    if |s| == 0 then ""
    else if IsWordChar(s[0]) then f(s[..RunLen(s)]) + MapWords(s[RunLen(s)..], f)
    else [s[0]] + MapWords(s[1..], f)
  }

  /** The per-word effect of one replacement: `r` for a run equal to `w` up to case. */
  function WordRule(w: string, r: string): string -> string {
    x => if Lower(x) == Lower(w) then r else x
  }

  /** Applying `f`, then mapping `g` over the words of what `f` produced. */
  function Then(f: string -> string, g: string -> string): string -> string {
    x => MapWords(f(x), g)
  }

  /** A string that is one word is mapped to its image. */
  lemma MapOneWord(x: string, f: string -> string)
    requires IsWord(x)
    ensures MapWords(x, f) == f(x)
  {
    RunLenUnique(x, |x|);
    assert x[..|x|] == x;
  }

  /** A string starting with a non-word character keeps it in front. */
  lemma MapWordsHead(s: string, f: string -> string)
    requires |s| > 0 && !IsWordChar(s[0])
    ensures MapWords(s, f) == [s[0]] + MapWords(s[1..], f)
  {
  }

  /** A run of word characters stays a run when a non-word character or nothing follows. */
  lemma RunLenConcat(a: string, b: string)
    requires |a| > 0 && IsWordChar(a[0])
    requires |b| == 0 || !IsWordChar(a[|a| - 1]) || !IsWordChar(b[0])
    ensures RunLen(a + b) == RunLen(a)
  {
    var n := RunLen(a);
    if n < |a| {
      assert (a + b)[n] == a[n];
    } else if |b| > 0 {
      assert (a + b)[n] == b[0];
    }
    assert forall i :: 0 <= i < n ==> (a + b)[i] == a[i];
    RunLenUnique(a + b, n);
  }

  /** Mapping distributes over a concatenation that does not cut through a word. */
  lemma {:induction false} MapWordsSplit(a: string, b: string, g: string -> string)
    requires |a| == 0 || |b| == 0 || !IsWordChar(a[|a| - 1]) || !IsWordChar(b[0])
    ensures MapWords(a + b, g) == MapWords(a, g) + MapWords(b, g)
    decreases |a|
  {
    if |a| == 0 {
      assert a + b == b;
    } else if !IsWordChar(a[0]) {
      assert (a + b)[1..] == a[1..] + b;
      MapWordsSplit(a[1..], b, g);
    } else {
      var n := RunLen(a);
      RunLenConcat(a, b);
      assert (a + b)[..n] == a[..n];
      assert (a + b)[n..] == a[n..] + b;
      MapWordsSplit(a[n..], b, g);
    }
  }

  /**
   * Mapping `f` and then `g` over the words is one mapping, whose per-word
   * effect is `g` mapped over the words of `f`'s output. No word of one run's
   * image can merge with a neighbour, since the characters that separated the
   * runs stay in place.
   */
  lemma {:induction false} MapWordsThen(s: string, f: string -> string, g: string -> string)
    ensures MapWords(MapWords(s, f), g) == MapWords(s, Then(f, g))
    decreases |s|
  {
    if |s| == 0 {
    } else if IsWordChar(s[0]) {
      var n := RunLen(s);
      var rest := MapWords(s[n..], f);
      if n < |s| {
        MapWordsHead(s[n..], f);
      }
      MapWordsSplit(f(s[..n]), rest, g);
      MapWordsThen(s[n..], f, g);
    } else {
      MapWordsSplit([s[0]], MapWords(s[1..], f), g);
      MapWordsThen(s[1..], f, g);
    }
  }

  /** Two maps that agree on every word agree on every string. */
  lemma {:induction false} MapWordsCongruent(s: string, f: string -> string, g: string -> string)
    requires forall x :: IsWord(x) ==> f(x) == g(x)
    ensures MapWords(s, f) == MapWords(s, g)
    decreases |s|
  {
    if |s| == 0 {
    } else if IsWordChar(s[0]) {
      var n := RunLen(s);
      assert IsWord(s[..n]);
      MapWordsCongruent(s[n..], f, g);
    } else {
      MapWordsCongruent(s[1..], f, g);
    }
  }

  /** Two words separated by a space are mapped one by one. */
  lemma MapTwoWords(a: string, b: string, f: string -> string)
    requires IsWord(a) && IsWord(b)
    ensures MapWords(a + " " + b, f) == f(a) + " " + f(b)
  {
    MapWordsSplit(a, " " + b, f);
    MapWordsSplit(" ", b, f);
    assert a + " " + b == a + (" " + b);
    MapOneWord(a, f);
    MapOneWord(b, f);
  }

  // The scan agrees with the reference.

  /** Inside a run the scan cannot match, so it copies the run unchanged. */
  lemma {:induction false} ReplaceCopiesRun(s: string, w: string, r: string, n: nat)
    requires IsWord(w)
    requires n <= |s|
    requires forall i :: 0 <= i < n ==> IsWordChar(s[i])
    ensures ReplaceFrom(s, w, r, true) == s[..n] + ReplaceFrom(s[n..], w, r, true)
    decreases n
  {
    if n > 0 {
      ReplaceCopiesRun(s[1..], w, r, n - 1);
      assert s[1..][n - 1..] == s[n..];
      assert s[..n] == [s[0]] + s[1..][..n - 1];
    }
  }

  /** No match starts at a non-word character. */
  lemma NoMatchAtNonWord(s: string, w: string)
    requires IsWord(w)
    requires |s| > 0 && !IsWordChar(s[0])
    ensures !MatchesAt(s, w)
  {
    if |w| <= |s| {
      assert Lower(s[..|w|])[0] == s[0];
      assert IsWordChar(Lower(w)[0]);
    }
  }

  /** At a non-word character the scan does the same whatever came before it. */
  lemma ReplaceAtNonWord(s: string, w: string, r: string)
    requires IsWord(w)
    requires |s| > 0 && !IsWordChar(s[0])
    ensures ReplaceFrom(s, w, r, true) == ReplaceFrom(s, w, r, false)
  {
    NoMatchAtNonWord(s, w);
  }

  /** A match is exactly a whole run that equals `w` up to case. */
  lemma MatchIsWholeRun(s: string, w: string)
    requires IsWord(w)
    requires |s| > 0 && IsWordChar(s[0])
    ensures MatchesAt(s, w) <==> Lower(s[..RunLen(s)]) == Lower(w)
  {
    var n := RunLen(s);
    if MatchesAt(s, w) {
      forall i | 0 <= i < |w|
        ensures IsWordChar(s[i])
      {
        assert Lower(s[..|w|])[i] == LowerChar(s[i]);
        assert Lower(w)[i] == LowerChar(w[i]);
      }
      RunLenUnique(s, |w|);
    }
    if Lower(s[..n]) == Lower(w) {
      assert |w| == n;
    }
  }

  /** `s.replace(/\bw\b/gi, r)` replaces exactly the runs equal to `w` up to case. */
  lemma {:induction false} ReplaceWordIsMapWords(s: string, w: string, r: string)
    requires IsWord(w)
    ensures ReplaceWord(s, w, r) == MapWords(s, WordRule(w, r))
    decreases |s|
  {
    if |s| == 0 {
    } else if !IsWordChar(s[0]) {
      NoMatchAtNonWord(s, w);
      ReplaceWordIsMapWords(s[1..], w, r);
    } else {
      var n := RunLen(s);
      ReplaceWordIsMapWords(s[n..], w, r);
      ReplaceRun(s, w, r);
    }
  }

  /** At the start of a run, the scan replaces the run or copies it, then goes on behind it. */
  lemma ReplaceRun(s: string, w: string, r: string)
    requires IsWord(w)
    requires |s| > 0 && IsWordChar(s[0])
    ensures ReplaceWord(s, w, r)
         == WordRule(w, r)(s[..RunLen(s)]) + ReplaceWord(s[RunLen(s)..], w, r)
  {
    var n := RunLen(s);
    MatchIsWholeRun(s, w);
    var tail := ReplaceFrom(s[n..], w, r, true);
    assert tail == ReplaceWord(s[n..], w, r) by {
      if n < |s| {
        ReplaceAtNonWord(s[n..], w, r);
      }
    }
    if MatchesAt(s, w) {
      ReplaceRunMatched(s, w, r);
    } else {
      ReplaceRunCopied(s, w, r);
    }
  }

  lemma ReplaceRunMatched(s: string, w: string, r: string)
    requires IsWord(w)
    requires |s| > 0 && IsWordChar(s[0])
    requires MatchesAt(s, w) && Lower(s[..RunLen(s)]) == Lower(w)
    ensures ReplaceFrom(s, w, r, false) == r + ReplaceFrom(s[RunLen(s)..], w, r, true)
    ensures WordRule(w, r)(s[..RunLen(s)]) == r
  {
  }

  lemma ReplaceRunCopied(s: string, w: string, r: string)
    requires IsWord(w)
    requires |s| > 0 && IsWordChar(s[0])
    requires !MatchesAt(s, w) && Lower(s[..RunLen(s)]) != Lower(w)
    ensures ReplaceFrom(s, w, r, false) == s[..RunLen(s)] + ReplaceFrom(s[RunLen(s)..], w, r, true)
    ensures WordRule(w, r)(s[..RunLen(s)]) == s[..RunLen(s)]
  {
    var n := RunLen(s);
    assert ReplaceFrom(s, w, r, false) == [s[0]] + ReplaceFrom(s[1..], w, r, true);
    CopyRest(s, w, r, n);
  }

  /** Behind the first character of a run, the scan copies the rest of the run. */
  lemma CopyRest(s: string, w: string, r: string, n: nat)
    requires IsWord(w)
    requires 1 <= n <= |s|
    requires forall i :: 0 <= i < n ==> IsWordChar(s[i])
    ensures [s[0]] + ReplaceFrom(s[1..], w, r, true) == s[..n] + ReplaceFrom(s[n..], w, r, true)
  {
    var t := s[1..];
    assert forall i :: 0 <= i < n - 1 ==> IsWordChar(t[i]) by {
      forall i | 0 <= i < n - 1 ensures IsWordChar(t[i]) {
        assert t[i] == s[i + 1];
      }
    }
    ReplaceCopiesRun(t, w, r, n - 1);
    assert t[n - 1..] == s[n..];
    assert s[..n] == [s[0]] + t[..n - 1];
  }
}

=== FILE: wrappers.dfy ===
/** Optional values and results with an error, shared by every module of the model. */
module Wrappers {

  /** A value that may be absent: JavaScript's `undefined`/`null` versus a present value. */
  datatype Option<+T> = None | Some(value: T)

  /** The outcome of an operation that can fail with an error message or code. */
  datatype Result<+T, +E> = Success(value: T) | Failure(error: E)
}
